=== FILE: README.md ===
# arpeecee in Dafny

This project models the core of arpeecee, a small RPC library that multiplexes
calls over one byte stream. It covers two files.

**`parser.js`.** This is the wire framing and the incremental frame parser.
- A frame is `varint(length) ++ varint(header) ++ varint(method) ++ varint(id) ++ payload`.
- The header packs `(service << 2) | type`.
- `length` counts everything after itself.
- `Parser.recv` takes chunks cut at arbitrary byte boundaries. For each complete frame it reports `(type, service, method, id, payload)`.
- It destroys itself on a malformed frame: a missing method, a missing id, a payload size below 0 or above `maxSize`, or an over-long varint.

**`index.js`.** This is the RPC endpoint.
- The built-in codecs are `BINARY`, `NULL` and `ERROR`.
- The method registry is filled by `defineMethod` and `class Method`.
- The call table is made of `requests` and the free-id stack `free`. It is used by `_request`, `_free` and `inflightRequests`.
- `_onmessage` decides what each incoming frame does: settle a pending call, run a handler and answer, or destroy the endpoint.

The parser is modelled faithfully as pure functions over an immutable record:
- `Parser.Recv` corresponds to `recv`.
- `Parser.ReadVarint` corresponds to `_readVarint`.
- `Parser.ReadMessage` corresponds to `_readMessage`.
- `Parser.NextState` corresponds to `_nextState`.

A separate byte-at-a-time machine, `Stream.Fold`, is the reference the parser is proved against.
- `Stream.RecvBridge` connects the two.
- On top of that bridge the project proves:
  - `send` round-trips through `recv`;
  - any sequence of well-formed frames is recovered in order;
  - splitting the input into chunks does not change what is reported, as long as the chunked delivery does not fail;
  - a chunked delivery of frames whose varints fit in 8 bytes never fails, however the chunks are cut.

Modules and files:
- `Wrappers` (wrappers.dfy): `Option` and `Result`.
- `Varint` (varint.dfy): unsigned LEB128, as `varint.encode` writes it.
- `Framing` (framing.dfy): the header and `send`.
- `Parser` (parser.dfy): the parser state machine.
- `Stream` and `Chunking` (stream.dfy): the reference machine, the bridge, and chunk-split independence.
- `RoundTrip` (roundtrip.dfy): send/recv round trips.
- `Delivery` (delivery.dfy): chunked delivery of frames with short varints always succeeds.
- `Accounting` (accounting.dfy): the destroy conditions, and what a destroyed parser still reports.
- `Codecs` (codecs.dfy): the built-in codecs.
- `CallTable` (calltable.dfy): call-id allocation.
- `Rpc` (rpc.dfy): the registry and the routing of incoming frames.

Conventions:
- Bytes are naturals below 256.
- Strings handed to a codec are taken to be their UTF-8 bytes.
- A handler is known by a tag, and so is a pending promise.
- What a handler does is a parameter (`Outcome`).
- What the endpoint sends is recorded as the argument list of `_push` (`Push`).

Some behaviours of the code are easy to misread. The model follows the code as written. The first five points below are proved as stated; the last is a remark on the code's shape.
- **Id 0.** A fresh endpoint hands out call id 0 first (`CallTable.FirstIdIsZero`). Id 0 is the id a request frame uses to mean "no reply" (`Rpc.FirstCallGetsNoReply`, `Rpc.NoReplyOnIdZero`).
- **Unknown method.** A frame for an unknown method always destroys the endpoint. No error reply is sent, because the guard tests the constant `IS_REQUEST`, which is 0 (`Rpc.UnknownMethodDestroys`).
- **Reply codec.** A handler's result is encoded with the method's *request* codec (`Rpc.RequestIsAnswered`).
- **Answer codec.** A response or error is decoded with the codec of the method named in the frame (`index.js:96`, `index.js:112`), not with the method the pending call was made on. A response carrying another method's id still settles the call (`Rpc.CrossMethodResponse`).
- **Destroyed parser.** A destroyed parser goes on parsing later chunks, and `recv` reports its failure through its return value (a payload too large to allocate is the exception; see "## Left out"). It reports the first complete frame of a chunk and then drops the rest of that chunk, because `_nextState` returns `!this.destroyed` after each frame (`Accounting.DestroyedParserReports`).
- **Frame routing** (a remark, not a lemma). Frames carry no service id in routing. The endpoint has no call that rejects all pending calls at teardown.

## Model

| member | source | states |
|---|---|---|
| Varint.Encode | parser.js:141-147 | every byte but the last has the continuation bit set and the last has it clear, so a varint reader stops exactly at the end |
| Varint.ValueOfEncode | parser.js:64-70 | accumulating `(b & 127) * 128^i` over an encoding gives back the encoded number |
| Varint.EncodingLengthIsLength | parser.js:138-139 | `encodingLength(n)` is the size of what `encode(n)` writes, the least k with n < 128^k |
| Varint.AtMostEightBytes | parser.js:71 | an encoding is at most 8 bytes (the guard's limit) exactly when the value is below 2^56 |
| Framing.Int32 | parser.js:127 | the 32-bit view of a number is congruent to it modulo 2^32 and lies in the signed 32-bit range |
| Framing.Header | parser.js:137 | the packed header is a non-negative 32-bit value whose two low bits are the type, and the parser's `header & 3` and `header >> 2` (parser.js:127) give back exactly the type and service packed |
| Framing.HeaderSignWrap | parser.js:127 | every header from 2^31 to 2^32 - 1 reads back as a negative service, that of the header minus 2^32, because the shift is signed 32-bit; the type is still the low two bits |
| Framing.FrameSize | parser.js:136-152 | a sent frame is `encodingLength(L) + L` bytes, starts with the varint of L, and ends with the payload |
| Parser.NewParser | parser.js:4-22 | a new parser is idle and not destroyed, with the given `maxSize` |
| Parser.EndpointParser | index.js:57 | the endpoint's parser is idle, not destroyed, and limited to the default 8 MiB payload |
| Parser.Destroy | parser.js:24-27 | destroy sets the flag, records the error only when one is given, and changes nothing else |
| Parser.Accumulate | parser.js:66-67 | one varint byte raises the value by at most 127 times the current factor, counts one byte, and changes nothing else |
| Parser.NextState | parser.js:75-134 | a field transition never reports a frame and resets the varint count; reading stops only when the parser is destroyed; the state invariant is kept |
| Parser.Guard | parser.js:71 | at the end of a chunk the parser is destroyed exactly when it was already, or when 8 or more varint bytes were read |
| Parser.Slice | parser.js:52 | `Buffer.slice` within bounds is the sub-sequence |
| Parser.ReadVarint | parser.js:64-73 | the returned offset moves forward within the chunk, no frame is reported, and destruction is never undone |
| Parser.ReadMessage | parser.js:46-62 | the offset moves forward unless a zero-length payload completes, and the state invariant is kept |
| Parser.Iterate | parser.js:35-36 | each loop step consumes input or completes a pending frame |
| Parser.Loop | parser.js:33-37 | the receive loop terminates and keeps the invariant, `maxSize` and the destroyed flag |
| Parser.Recv | parser.js:29-44 | a nested call fails with the recursion error; otherwise the parser is left idle, the result is `!destroyed`, and destruction is sticky |
| Stream.FinalFlush | parser.js:38-40 | the `_readMessage` call after the loop reports a finished payload exactly as the reference machine's flush does |
| Stream.Fold | parser.js:34-37 | feeding bytes one by one never undoes destruction and keeps `maxSize` |
| Stream.FoldAppend | parser.js:34-37 | feeding `a + b` is feeding `a` and then `b` |
| Stream.FoldCongruence | parser.js:80 | states that differ only in the stale length of the read-length phase behave the same on every input |
| Stream.FoldPayload | parser.js:57-59 | payload bytes append to the message and decrease the remaining length |
| Stream.LoopBridge | parser.js:33-40 | the chunk loop agrees with the byte-at-a-time machine followed by the end-of-chunk guard |
| Stream.RecvBridge | parser.js:29-44 | `recv` yields the reference frames, state and result whenever the reference survives, and succeeds only if it survives |
| Chunking.RecvChunks | parser.js:29-44 | after each chunk the parser is idle and the result is `!destroyed` |
| Chunking.ChunkSplit | parser.js:29-44 | if receiving `a` then `b` succeeds, receiving `a + b` at once succeeds with the same frames and an equivalent state |
| Chunking.SplitIndependence | parser.js:29-44 | a chunked delivery that succeeds reports the same frames as the whole input in one chunk |
| Delivery.ChunkedDeliverySucceeds | parser.js:64-73 | however a stream of frames whose length, method and id fit in 8 varint bytes is cut into chunks, every `recv` succeeds |
| Delivery.AnyChunking | parser.js:29-44 | however such a stream is cut into chunks, delivery succeeds and reports exactly the frames sent, in order |
| RoundTrip.FoldEncode | parser.js:64-70 | reading a varint encoding accumulates exactly its value and then takes one state transition |
| RoundTrip.LengthField | parser.js:77-83 | a non-zero length moves to reading the header with that length |
| RoundTrip.HeaderField | parser.js:85-95 | a header within the length is stored and its size subtracted |
| RoundTrip.MethodField | parser.js:97-107 | a method within the length is stored and its size subtracted |
| RoundTrip.IdField | parser.js:109-123 | an id leaving a payload size between 0 and `maxSize` moves to reading the payload |
| RoundTrip.EmitFrame | parser.js:125-129 | a parser holding a complete payload whose header `send` packed from a frame's type and service reports exactly that frame, with its method, id and payload, and is back at a frame boundary |
| RoundTrip.FoldFrame | parser.js:75-134 | one encoded frame leaves the parser with that frame complete and back at a boundary |
| RoundTrip.FoldStream | parser.js:34-37 | a sequence of encoded frames is read back in order without destruction |
| RoundTrip.RecvStream | parser.js:29-44 | `recv` of concatenated frames succeeds and reports exactly those frames |
| RoundTrip.FrameRoundTrip | parser.js:136-152 | `recv` of what `send` produces on a new parser succeeds and reports exactly the frame sent |
| RoundTrip.ChunkedStream | parser.js:29-44 | any successful chunked delivery of well-formed frames reports exactly those frames |
| Accounting.DestroyedReference | parser.js:43 | once a prefix of the input destroys the parser, `recv` returns false |
| Accounting.ZeroLengthFrames | parser.js:82 | zero bytes are empty length prefixes: accepted, nothing reported |
| Accounting.MissingMethodDestroys | parser.js:91-94 | a length that ends within the header destroys the parser |
| Accounting.MissingIdDestroys | parser.js:103-106 | a length that ends within the method destroys the parser |
| Accounting.PayloadOutOfRangeDestroys | parser.js:115-118 | a payload size below 0 or above `maxSize` destroys the parser |
| Accounting.FoldContinuation | parser.js:65-70 | continuation bytes only count up, without a state change or a frame |
| Accounting.OverlongVarintDestroys | parser.js:71 | a chunk of 8 or more continuation bytes destroys the parser |
| Accounting.OverlongVarintOnlyAtChunkEnd | parser.js:64-73 | for every method id that needs nine varint bytes, a bare request arriving as one chunk is accepted, but a first chunk that stops after the method's eighth byte destroys the parser |
| Accounting.EmptyPayloadAtChunkEnd | parser.js:38-40 | a frame with an empty payload at the very end of a chunk is still reported |
| Accounting.DestroyedParserReports | parser.js:125-129 | a destroyed parser at a frame boundary, given a sent frame followed by any bytes, reports exactly that frame, ignores the bytes after it, and returns false |
| Codecs.CopyInto | index.js:25 | the bytes that fit are copied in at the offset, and every other byte is kept |
| Codecs.BinaryEncode | index.js:22-27 | without a buffer the data itself is returned; with one, the data appears at the offset |
| Codecs.BinaryEncodingLength | index.js:31-33 | the length is that of what `encode` returns without a buffer |
| Codecs.BinaryDecode | index.js:28-30 | the decoded bytes are what is left of the buffer after the first `offset` bytes, and nothing when the offset is past the end |
| Codecs.BinaryRoundTrip | index.js:21-34 | decoding what was encoded into a buffer of exactly `encodingLength` bytes gives the data back |
| Codecs.NullEncode | index.js:37-39 | `NULL` leaves a given buffer untouched, or returns an empty one |
| Codecs.NullEncodingLength | index.js:43-45 | the length is that of what `encode` returns without a buffer |
| Codecs.NullDecode | index.js:40-42 | `NULL` decodes any buffer to null |
| Codecs.NullRoundTrip | index.js:36-46 | `NULL` writes nothing and decodes to null |
| Codecs.ErrorEncode | index.js:9-11 | `ERROR` writes the message's bytes as `BINARY` would: returned alone without a buffer, at the offset with one |
| Codecs.ErrorDecode | index.js:12-15 | `ERROR` decodes to an error whose message is the buffer after the offset |
| Codecs.ErrorEncodingLength | index.js:16-18 | the length is the message's length, that of what `encode` returns without a buffer |
| Codecs.ErrorRoundTrip | index.js:8-19 | an error's message survives `ERROR` encoding and decoding |
| Codecs.EncodingLengthsAgree | index.js:8-46 | each built-in's `encodingLength` is the length of what its `encode` returns |
| Codecs.Decode | index.js:122-128 | the built-in codecs never throw and decode to bytes, null or an error respectively |
| CallTable.Request | index.js:179-195 | a free id is popped or the table grows by one slot; the call is stored there, no other slot changes, the free-list invariant is kept, and the in-flight count rises by 1 |
| CallTable.Free | index.js:64-75 | an occupied id is released and its entry returned, with the in-flight count down by 1; an empty or unknown id returns nothing and changes nothing |
| CallTable.InFlightCountsPending | index.js:168-170 | `requests.length - free.length` equals the number of pending calls |
| CallTable.FirstIdIsZero | index.js:180-185 | a new table's first id is 0 |
| CallTable.FreedIdReused | index.js:180-185 | the id just released is the next one handed out |
| CallTable.NoDoubleFree | index.js:65-70 | releasing the same id twice finds nothing the second time |
| CallTable.RequestsKeepSize | index.js:180-183 | while free ids remain, new requests do not grow the table |
| CallTable.RequestsReuseFreeIds | index.js:185 | new requests get the free ids in stack order, most recently freed first |
| Rpc.NewEndpoint | index.js:49-58 | a new endpoint has no methods and no calls; its error codec is the one given, or `ERROR` when none is |
| Rpc.NewMethod | index.js:203-211 | request and response codecs default to `BINARY` and the error codec to the endpoint's |
| Rpc.MethodDefaults | index.js:207-210 | with no options, a method on a default endpoint uses `BINARY`, `BINARY` and `ERROR` |
| Rpc.Lookup | index.js:78 | a method is found exactly when its id is inside the table and the slot holds one, and it is that slot's method |
| Rpc.DefineMethod | index.js:172-177 | the id defaults to the table length; afterwards that id maps to the new method, every other id maps as before, and new slots are holes |
| Rpc.Call | index.js:179-196 | a request is pushed on a fresh id with the request codec, and the call is pending there; the endpoint returned is what `_request` leaves when `_push` changes nothing, that is, without its destroy |
| Rpc.CallNoReply | index.js:198-200 | a no-reply request is pushed on id 0 with the request codec; before `_push` runs, the endpoint, and so its in-flight count, is unchanged |
| Rpc.InflightRequests | index.js:168-170 | on a well-formed call table the count is the number of pending calls |
| Rpc.Settle | index.js:64-75 | the pending call comes back exactly when the id is busy; otherwise the endpoint is destroyed |
| Rpc.Answer | index.js:90-120 | an answer for an idle id destroys the endpoint; for a pending call it frees the id and lowers the in-flight count, then resolves or rejects that call with the decoded payload, or destroys the endpoint when decoding throws |
| Rpc.Route | index.js:77-147 | only answers touch the call table; a resolved or rejected call is the one pending at the frame's id; replies go only to requests with a non-zero id; the endpoint returned is what `_onmessage` leaves when a reply's `_push` changes nothing, that is, without its destroy |
| Rpc.UnknownMethodDestroys | index.js:80-86 | a frame for an undefined method destroys the endpoint, whatever its type |
| Rpc.UnmatchedAnswerDestroys | index.js:90-93 | a response or error for an id with no pending call destroys the endpoint and settles nothing |
| Rpc.ResponseSettlesOnce | index.js:90-104 | a response whose payload the response codec decodes resolves its pending call with the decoded value, and the same response again is unmatched |
| Rpc.ErrorRejects | index.js:106-120 | an error frame whose payload the error codec decodes rejects its pending call with the decoded value, which under `ERROR` is an error carrying the payload as message |
| Rpc.NoReplyOnIdZero | index.js:130-133 | a request on id 0 whose payload decodes runs the handler on the decoded value, sends nothing and leaves the endpoint as it was |
| Rpc.RequestIsAnswered | index.js:135-144 | other requests whose payload decodes are answered: a result as a Response encoded with the request codec, and a throw as an Error with the error codec |
| Rpc.CrossMethodResponse | index.js:90-104 | a response is decoded with the codec of the frame's method, and resolves the pending call even when that call was made on another method |
| Rpc.FirstCallGetsNoReply | index.js:179-187 | the first call on a new endpoint goes out on id 0 |

## Left out

- Stream plumbing is not modelled: the `streamx` duplex, `_write`, `push` and destroy propagation. These are transport I/O.
- `_push` and the wiring of the endpoint to the parser are not modelled. `index.js` calls `send` with five arguments where it takes six, and `onmessage` is called with a service argument that `_onmessage` does not take. Each file is modelled as written, and outgoing frames are recorded as `_push` argument lists.
- `_push` as written fails on every call, and this is not modelled. With five arguments, `send` receives the codec as its message and `undefined` as `enc`. `enc.encodingLength` at parser.js:138 then throws a `TypeError`, and `_push` catches it and destroys the endpoint (index.js:152-157). So every request, no-reply request, reply and error reply destroys the endpoint and sends nothing. The endpoints that `Rpc.Call`, `Rpc.CallNoReply` and `Rpc.Route` return are what `_request`, `_requestNoReply` and `_onmessage` leave when `_push` changes nothing, that is, without its destroy. For `Rpc.Call` this includes the pending call, which `_request` stores after `_push` (index.js:189-195).
- Promises and handler execution are not modelled. A pending call's promise is an uninterpreted tag. A handler's result is the `Outcome` parameter, since `await` is concurrency.
- `Rpc.NotAFunction` is the one `TypeError` JavaScript throws when a method has no handler. It is kept as an uninterpreted value.
- `onmessage` is taken to return normally without touching the parser. `_nextState` computes whether to go on from the destroyed flag as it was before the callback, where `parser.js` reads it again after the callback. `index.js` meets the assumption: `_onmessage` is async, and the `destroy` it calls is the stream's, not the parser's. A parser built without `onmessage` throws on its first complete frame; that is not modelled.
- The `onmissing` callback is advisory and has no effect on parsing.
- The `varint` package's own code is not modelled. `Varint.Encode` is unsigned LEB128, the format its encoder writes for non-negative integers.
- JavaScript doubles are not modelled. `_readVarint` accumulates in floating point, which loses precision above 2^53; the model uses unbounded naturals.
- Buffer aliasing is not modelled: `slice` sharing memory with the chunk, and the contents of `allocUnsafe`. Only the byte values of a payload are modelled.
- The allocation failure of `allocUnsafe` is not modelled, because buffer memory limits are left out. A parser destroyed for size can still hold a remaining length above Node's largest buffer. The next chunk that does not complete the payload then makes `Buffer.allocUnsafe(this._length)` at parser.js:58 throw. That leaves `receiving` set, so every later `recv` throws the recursion error. The model's `Recv` returns failure instead and clears `receiving`.
- The last two arguments of `onmessage`, the current chunk and the offset where reading resumes (parser.js:127), are not modelled. `_onmessage` at index.js:77 ignores them, and results that hold under any chunking can only be stated without them, since the chunk differs from one chunking to another.
- The `default` case of `_nextState` is not modelled, because the state is always one of the five phases.
- UTF-8 conversion of strings is not modelled. `ERROR` decodes to the message bytes.
- Framing.Send requires a type below 4 and a service below 2^29, so that the header is a non-negative 32-bit value. The `varint` package's behaviour on negative numbers is not part of this model.
- Chunking.SplitIndependence assumes the chunked delivery succeeds, since for arbitrary bytes it need not. For streams of frames whose length, method and id fit in 8 varint bytes, `Delivery.AnyChunking` proves that it does.
- Chunking.ChunkSplit assumes the chunked delivery succeeds. A delivery that ends a chunk inside a long varint can fail where the whole input would not; `Accounting.OverlongVarintOnlyAtChunkEnd` shows this.
- Stream.RecvBridge relates `recv` to the reference only while the reference is not destroyed. After destruction, `recv`'s later state depends on chunking; the model shows that its result is then false.
- The library's example script is a demo with console output.

=== FILE: accounting.dfy ===
/** The length accounting of `_nextState` and the overlong-varint check of
    `_readVarint`, stated on whole `recv` calls: when a chunk destroys the
    parser, and when it does not. */
module Accounting {
  import opened Wrappers
  import opened Varint
  import opened Framing
  import opened Parser
  import opened Stream
  import opened RoundTrip

  /** A reference run that destroys the parser makes `recv` return false. */
  lemma DestroyedReference(p: Parser, data: seq<Byte>, prefix: seq<Byte>, rest: seq<Byte>)
    requires Idle(p)
    requires data == prefix + rest
    requires Fold(Run(p.(receiving := true), []), prefix).parser.destroyed
    ensures !Recv(p, data).value.ok
  {
    var r0 := Run(p.(receiving := true), []);
    FoldAppend(r0, prefix, rest);
    RecvBridge(p, data);
  }

  /** A length prefix of 0 is a frame with nothing in it: no report, and the
      parser stays at a frame boundary, however many of them arrive. */
  lemma {:induction false} FoldZeros(r: Run, n: nat)
    requires Boundary(r.parser)
    ensures var g := Fold(r, seq(n, _ => 0));
            Boundary(g.parser) && g.frames == r.frames && g.parser.maxSize == r.parser.maxSize
    decreases n
  {
    var s: seq<Byte> := seq(n, _ => 0);
    if n > 0 {
      assert s[0] == 0 && s[1..] == seq(n - 1, _ => 0);
      FoldZeros(Feed(r, 0), n - 1);
    }
  }

  lemma ZeroLengthFrames(p: Parser, n: nat)
    requires Idle(p) && Boundary(p)
    ensures var res := Recv(p, seq(n, _ => 0)).value;
            res.ok && res.frames == [] && Boundary(res.parser)
  {
    FoldZeros(Run(p.(receiving := true), []), n);
    RecvBridge(p, seq(n, _ => 0));
  }

  /** A length that leaves nothing after the header destroys the parser. */
  lemma MissingMethodDestroys(p: Parser, length: nat, header: nat, rest: seq<Byte>)
    requires Idle(p) && Boundary(p)
    requires 0 < length <= EncodingLength(header)
    ensures !Recv(p, Encode(length) + Encode(header) + rest).value.ok
  {
    var r0 := Run(p.(receiving := true), []);
    LengthField(r0, length);
    var r1 := Fold(r0, Encode(length));
    EncodingLengthIsLength(header);
    FoldEncode(r1, header);
    AbsorbReset(r1.parser, header);
    FoldAppend(r0, Encode(length), Encode(header));
    DestroyedReference(p, Encode(length) + Encode(header) + rest,
                       Encode(length) + Encode(header), rest);
  }

  /** A length that leaves nothing after the method destroys the parser. */
  lemma MissingIdDestroys(p: Parser, length: nat, header: nat, methodId: nat, rest: seq<Byte>)
    requires Idle(p) && Boundary(p)
    requires EncodingLength(header) < length <= EncodingLength(header) + EncodingLength(methodId)
    ensures !Recv(p, Encode(length) + Encode(header) + Encode(methodId) + rest).value.ok
  {
    var r0 := Run(p.(receiving := true), []);
    LengthField(r0, length);
    var r1 := Fold(r0, Encode(length));
    HeaderField(r1, header);
    var r2 := Fold(r1, Encode(header));
    MethodFieldFails(r2, methodId);
    var prefix := Encode(length) + Encode(header) + Encode(methodId);
    FoldAppend(r0, Encode(length) + Encode(header), Encode(methodId));
    FoldAppend(r0, Encode(length), Encode(header));
    assert Fold(r0, prefix) == Fold(r2, Encode(methodId));
    DestroyedReference(p, prefix + rest, prefix, rest);
  }

  /** After the id, a remaining payload length below zero or above
      `maxSize` destroys the parser before any payload byte is stored. */
  lemma PayloadOutOfRangeDestroys(p: Parser, length: nat, header: nat, methodId: nat, id: nat,
                                  rest: seq<Byte>)
    requires Idle(p) && Boundary(p)
    requires EncodingLength(header) + EncodingLength(methodId) < length
    requires var payload := length - EncodingLength(header) - EncodingLength(methodId) - EncodingLength(id);
             payload < 0 || payload > p.maxSize
    ensures !Recv(p, Encode(length) + Encode(header) + Encode(methodId) + Encode(id) + rest).value.ok
  {
    var r0 := Run(p.(receiving := true), []);
    LengthField(r0, length);
    var r1 := Fold(r0, Encode(length));
    HeaderField(r1, header);
    var r2 := Fold(r1, Encode(header));
    MethodField(r2, methodId);
    var r3 := Fold(r2, Encode(methodId));
    IdFieldFails(r3, id);
    var prefix := Encode(length) + Encode(header) + Encode(methodId) + Encode(id);
    FoldAppend(r0, Encode(length) + Encode(header) + Encode(methodId), Encode(id));
    FoldAppend(r0, Encode(length) + Encode(header), Encode(methodId));
    FoldAppend(r0, Encode(length), Encode(header));
    assert Fold(r0, prefix) == Fold(r3, Encode(id));
    DestroyedReference(p, prefix + rest, prefix, rest);
  }

  lemma MethodFieldFails(r: Run, n: nat)
    requires r.parser.phase == ReadMethod && Reset(r.parser)
    requires r.parser.length <= EncodingLength(n)
    ensures Fold(r, Encode(n)).parser.destroyed
  {
    EncodingLengthIsLength(n);
    FoldEncode(r, n);
    AbsorbReset(r.parser, n);
  }

  lemma IdFieldFails(r: Run, n: nat)
    requires r.parser.phase == ReadId && Reset(r.parser)
    requires var rest := r.parser.length - EncodingLength(n);
             rest < 0 || rest > r.parser.maxSize
    ensures Fold(r, Encode(n)).parser.destroyed
  {
    EncodingLengthIsLength(n);
    FoldEncode(r, n);
    AbsorbReset(r.parser, n);
  }

  /** Continuation bytes only ever add to the varint being read. */
  lemma {:induction false} FoldContinuation(r: Run, s: seq<Byte>)
    requires r.parser.phase != ReadPayload
    requires forall i :: 0 <= i < |s| ==> s[i] >= 128
    ensures var g := Fold(r, s);
            && g.parser.phase == r.parser.phase
            && g.parser.consumed == r.parser.consumed + |s|
            && g.parser.destroyed == r.parser.destroyed
            && g.frames == r.frames
    decreases |s|
  {
    if |s| > 0 {
      FoldContinuation(Feed(r, s[0]), s[1..]);
    }
  }

  /** A chunk that ends after eight or more bytes of an unfinished varint
      destroys the parser. */
  lemma OverlongVarintDestroys(p: Parser, chunk: seq<Byte>)
    requires Idle(p) && Boundary(p)
    requires |chunk| >= 8
    requires forall i :: 0 <= i < |chunk| ==> chunk[i] >= 128
    ensures !Recv(p, chunk).value.ok
  {
    FoldContinuation(Run(p.(receiving := true), []), chunk);
    RecvBridge(p, chunk);
  }

  /** A Request on service 0 with id 0 and no payload. */
  function BareRequest(methodId: nat): seq<Byte>
  {
    Send(Request, 0, methodId, 0, [])
  }

  /** The numbers whose encoding takes exactly nine bytes. */
  lemma NineBytes(n: nat)
    requires Pow128(8) <= n < Pow128(9)
    ensures EncodingLength(n) == 9
  {
    AtMostEightBytes(n);
    PowStrict(9, EncodingLength(n) - 1);
  }

  /** The first ten bytes of a bare request whose method id takes nine
      bytes: the length, the header, and eight continuation bytes. */
  lemma LongMethodPrefix(methodId: nat) returns (L: nat, m: seq<Byte>)
    requires EncodingLength(methodId) == 9
    ensures 1 < L < 128 && |m| == 8 && forall i :: 0 <= i < 8 ==> m[i] >= 128
    ensures Slice(BareRequest(methodId), 0, 10) == [L] + [0] + m
  {
    L := FrameLength(Request, 0, methodId, 0, []);
    EncodingLengthIsLength(methodId);
    var e := Encode(methodId);
    m := e[..8];
    assert Encode(Header(Request, 0)) == [0];
    assert Encode(L) == [L];
    var frame := BareRequest(methodId);
    assert frame == [L] + [0] + e + Encode(0);
    assert frame[..10] == [L] + [0] + m;
  }

  /** Those ten bytes leave a live parser eight bytes into a varint. */
  lemma LongMethodPrefixFold(p: Parser, L: nat, m: seq<Byte>)
    requires Boundary(p) && 1 < L < 128
    requires |m| == 8 && forall i :: 0 <= i < 8 ==> m[i] >= 128
    ensures var g := Fold(Run(p, []), [L] + [0] + m);
            !g.parser.destroyed && g.parser.consumed >= 8
  {
    var r0 := Run(p, []);
    LengthField(r0, L);
    var r1 := Fold(r0, [L]);
    HeaderField(r1, 0);
    var r2 := Fold(r1, [0]);
    FoldContinuation(r2, m);
    FoldAppend(r0, [L], [0]);
    FoldAppend(r0, [L] + [0], m);
  }

  /** A chunk whose bytes leave a live parser eight bytes into a varint makes
      `recv` fail. */
  lemma ChunkEndsInLongVarint(p: Parser, data: seq<Byte>)
    requires Idle(p) && |data| > 0
    requires var g := Fold(Run(p.(receiving := true), []), data);
             !g.parser.destroyed && g.parser.consumed >= 8
    ensures !Recv(p, data).value.ok
  {
    RecvBridge(p, data);
    var g := Fold(Run(p.(receiving := true), []), data);
    assert Guard(g).parser.destroyed;
    assert !Reference(p, data).ok;
  }

  /** The same check never looks inside a chunk: a request whose method id
      needs nine bytes is read without complaint when it arrives whole, yet
      cutting the chunk right after the method's eighth byte destroys the
      parser. */
  lemma OverlongVarintOnlyAtChunkEnd(maxSize: nat, methodId: nat)
    requires Pow128(8) <= methodId < Pow128(9)
    ensures Recv(NewParser(maxSize), BareRequest(methodId)).value.ok
    ensures !Recv(NewParser(maxSize), Slice(BareRequest(methodId), 0, 10)).value.ok
  {
    FrameRoundTrip(maxSize, Request, 0, methodId, 0, []);
    NineBytes(methodId);
    var p := NewParser(maxSize);
    var L, m := LongMethodPrefix(methodId);
    LongMethodPrefixFold(p.(receiving := true), L, m);
    ChunkEndsInLongVarint(p, [L] + [0] + m);
  }

  /** A frame with an empty payload that ends exactly at the end of the
      chunk is still reported. */
  lemma EmptyPayloadAtChunkEnd(maxSize: nat, kind: nat, service: nat, methodId: nat, id: nat)
    requires kind < 4 && service < TwoTo29
    ensures Recv(NewParser(maxSize), Send(kind, service, methodId, id, [])).value.frames
              == [Frame(kind, service, methodId, id, [])]
  {
    FrameRoundTrip(maxSize, kind, service, methodId, id, []);
  }

  // ---------------------------------------------------------------------
  // A destroyed parser

  /** `_readVarint` over a whole encoding in the chunk: the value is
      accumulated and handed to `_nextState`, which decides where reading
      resumes. */
  lemma {:induction false} ReadEncoded(r: Run, data: seq<Byte>, offset: nat, n: nat, more: seq<Byte>)
    requires r.parser.phase != ReadPayload && Valid(r.parser)
    requires offset <= |data| && data[offset..] == Encode(n) + more
    ensures var nx := NextState(Run(Absorb(r.parser, n), r.frames));
            ReadVarint(r, data, offset) == Cursor(nx.run, if nx.proceed then offset + |Encode(n)| else |data|)
    decreases n
  {
    var p := r.parser;
    EncodeAt(data, offset, n, more);
    if n < 128 {
      AbsorbOne(p, n);
    } else {
      var q := Accumulate(p, n % 128 + 128);
      var r1 := Run(q.(factor := q.factor * 128), r.frames);
      assert ReadVarint(r, data, offset) == ReadVarint(r1, data, offset + 1);
      AbsorbStep(p, n);
      assert Absorb(r1.parser, n / 128) == Absorb(p, n);
      ReadEncoded(r1, data, offset + 1, n / 128, more);
    }
  }

  /** Where an encoding sits in a chunk: its first byte, and what follows
      that byte. */
  lemma EncodeAt(data: seq<Byte>, offset: nat, n: nat, more: seq<Byte>)
    requires offset <= |data| && data[offset..] == Encode(n) + more
    ensures offset < |data|
    ensures n < 128 ==> data[offset] == n
    ensures n >= 128 ==> data[offset] == n % 128 + 128 && data[offset + 1..] == Encode(n / 128) + more
  {
    assert data[offset] == data[offset..][0] == Encode(n)[0];
    if n >= 128 {
      assert data[offset + 1..] == data[offset..][1..];
    }
  }

  /** One turn of the receive loop over a varint field that `_nextState`
      turns into `next` and lets the loop read past. */
  lemma IterateField(r: Run, data: seq<Byte>, offset: nat, n: nat, more: seq<Byte>, next: Run)
    requires r.parser.phase != ReadPayload && Valid(r.parser)
    requires offset <= |data| && data[offset..] == Encode(n) + more
    requires NextState(Run(Absorb(r.parser, n), r.frames)).run == next
    requires NextState(Run(Absorb(r.parser, n), r.frames)).proceed
    ensures offset < offset + |Encode(n)| <= |data| && data[offset + |Encode(n)|..] == more
    ensures Iterate(r, data, offset) == Cursor(next, offset + |Encode(n)|)
  {
    ReadEncoded(r, data, offset, n, more);
    assert data[offset + |Encode(n)|..] == data[offset..][|Encode(n)|..];
  }

  /** The turn over the length of a frame. */
  lemma IterateLength(p: Parser, frames: seq<Frame>, data: seq<Byte>, o: nat, L: nat, more: seq<Byte>)
    requires p.phase == ReadLength && Reset(p) && L > 0
    requires o <= |data| && data[o..] == Encode(L) + more
    ensures o < o + |Encode(L)| <= |data| && data[o + |Encode(L)|..] == more
    ensures Iterate(Run(p, frames), data, o) == Cursor(Run(p.(phase := ReadHeader, length := L), frames), o + |Encode(L)|)
  {
    LengthStep(p, L, frames);
    IterateField(Run(p, frames), data, o, L, more, Run(p.(phase := ReadHeader, length := L), frames));
  }

  /** The turn over the header of a frame. */
  lemma IterateHeader(p: Parser, frames: seq<Frame>, data: seq<Byte>, o: nat, h: nat, more: seq<Byte>)
    requires p.phase == ReadHeader && Reset(p) && p.length > EncodingLength(h)
    requires o <= |data| && data[o..] == Encode(h) + more
    ensures o < o + |Encode(h)| <= |data| && data[o + |Encode(h)|..] == more
    ensures Iterate(Run(p, frames), data, o) ==
              Cursor(Run(p.(phase := ReadMethod, header := h, length := p.length - EncodingLength(h)), frames), o + |Encode(h)|)
  {
    HeaderStep(p, h, frames);
    IterateField(Run(p, frames), data, o, h, more,
                 Run(p.(phase := ReadMethod, header := h, length := p.length - EncodingLength(h)), frames));
  }

  /** The turn over the method of a frame. */
  lemma IterateMethod(p: Parser, frames: seq<Frame>, data: seq<Byte>, o: nat, m: nat, more: seq<Byte>)
    requires p.phase == ReadMethod && Reset(p) && p.length > EncodingLength(m)
    requires o <= |data| && data[o..] == Encode(m) + more
    ensures o < o + |Encode(m)| <= |data| && data[o + |Encode(m)|..] == more
    ensures Iterate(Run(p, frames), data, o) ==
              Cursor(Run(p.(phase := ReadId, methodId := m, length := p.length - EncodingLength(m)), frames), o + |Encode(m)|)
  {
    MethodStep(p, m, frames);
    IterateField(Run(p, frames), data, o, m, more,
                 Run(p.(phase := ReadId, methodId := m, length := p.length - EncodingLength(m)), frames));
  }

  /** The turn over the id of a frame. */
  lemma IterateId(p: Parser, frames: seq<Frame>, data: seq<Byte>, o: nat, id: nat, more: seq<Byte>)
    requires p.phase == ReadId && Reset(p) && 0 <= p.length - EncodingLength(id) <= p.maxSize
    requires o <= |data| && data[o..] == Encode(id) + more
    ensures o < o + |Encode(id)| <= |data| && data[o + |Encode(id)|..] == more
    ensures Iterate(Run(p, frames), data, o) ==
              Cursor(Run(p.(phase := ReadPayload, id := id, length := p.length - EncodingLength(id)), frames), o + |Encode(id)|)
  {
    IdStep(p, id, frames);
    IterateField(Run(p, frames), data, o, id, more,
                 Run(p.(phase := ReadPayload, id := id, length := p.length - EncodingLength(id)), frames));
  }

  /** One turn of the loop, ending where the rest of the loop starts. */
  lemma LoopOne(r0: Run, r1: Run, data: seq<Byte>, o0: nat, o1: nat)
    requires o0 < o1 <= |data| && Valid(r0.parser) && Valid(r1.parser)
    requires Iterate(r0, data, o0) == Cursor(r1, o1)
    ensures Loop(r0, data, o0) == Loop(r1, data, o1)
  {
  }

  /** The loop over the method of a frame. */
  lemma LoopMethod(p: Parser, data: seq<Byte>, o: nat, m: nat, more: seq<Byte>) returns (q: Parser, o1: nat)
    requires p.phase == ReadMethod && Reset(p) && p.length > EncodingLength(m)
    requires o <= |data| && data[o..] == Encode(m) + more
    ensures q == p.(phase := ReadId, methodId := m, length := p.length - EncodingLength(m))
    ensures o1 <= |data| && data[o1..] == more
    ensures Loop(Run(p, []), data, o) == Loop(Run(q, []), data, o1)
  {
    q := p.(phase := ReadId, methodId := m, length := p.length - EncodingLength(m));
    IterateMethod(p, [], data, o, m, more);
    o1 := o + |Encode(m)|;
    LoopOne(Run(p, []), Run(q, []), data, o, o1);
  }

  /** The loop over the id of a frame. */
  lemma LoopId(p: Parser, data: seq<Byte>, o: nat, id: nat, more: seq<Byte>) returns (q: Parser, o1: nat)
    requires p.phase == ReadId && Reset(p) && 0 <= p.length - EncodingLength(id) <= p.maxSize
    requires o <= |data| && data[o..] == Encode(id) + more
    ensures q == p.(phase := ReadPayload, id := id, length := p.length - EncodingLength(id))
    ensures o1 <= |data| && data[o1..] == more && Valid(q)
    ensures Loop(Run(p, []), data, o) == Loop(Run(q, []), data, o1)
  {
    q := p.(phase := ReadPayload, id := id, length := p.length - EncodingLength(id));
    IterateId(p, [], data, o, id, more);
    o1 := o + |Encode(id)|;
    LoopOne(Run(p, []), Run(q, []), data, o, o1);
  }

  /** The loop over the four varints of a frame at the start of a chunk,
      whether or not the parser is destroyed: it ends waiting for the
      payload, with the header, method and id stored. */
  lemma {:induction false} LoopFields(p: Parser, data: seq<Byte>, L: nat, h: nat, m: nat, id: nat, more: seq<Byte>)
    returns (r: Run, o: nat)
    requires p.phase == ReadLength && Reset(p)
    requires EncodingLength(h) + EncodingLength(m) + EncodingLength(id) <= L
    requires L - EncodingLength(h) - EncodingLength(m) - EncodingLength(id) <= p.maxSize
    requires data == Encode(L) + (Encode(h) + (Encode(m) + (Encode(id) + more)))
    ensures o <= |data| && data[o..] == more && Valid(r.parser)
    ensures Loop(Run(p, []), data, 0) == Loop(r, data, o)
    ensures r.frames == [] && r.parser.destroyed == p.destroyed && r.parser.message == p.message
    ensures r.parser.phase == ReadPayload && r.parser.length == L - EncodingLength(h) - EncodingLength(m) - EncodingLength(id)
    ensures r.parser.header == h && r.parser.methodId == m && r.parser.id == id
  {
    var p1 := p.(phase := ReadHeader, length := L);
    var p2 := p.(phase := ReadMethod, header := h, length := L - EncodingLength(h));
    assert data[0..] == data;
    IterateLength(p, [], data, 0, L, Encode(h) + (Encode(m) + (Encode(id) + more)));
    var o1 := |Encode(L)|;
    LoopOne(Run(p, []), Run(p1, []), data, 0, o1);
    IterateHeader(p1, [], data, o1, h, Encode(m) + (Encode(id) + more));
    var o2 := o1 + |Encode(h)|;
    assert p1.(phase := ReadMethod, header := h, length := p1.length - EncodingLength(h)) == p2;
    LoopOne(Run(p1, []), Run(p2, []), data, o1, o2);
    var p3, o3 := LoopMethod(p2, data, o2, m, Encode(id) + more);
    var p4, o4 := LoopId(p3, data, o3, id, more);
    r, o := Run(p4, []), o4;
  }

  /** A destroyed parser at a frame boundary still parses: given a chunk
      that starts with a frame written by `send`, it reports that frame, and
      only that frame, because `_nextState` stops the loop for the rest of
      the chunk once a destroyed parser has reported one; `recv` still
      returns false. */
  lemma DestroyedParserReports(p: Parser, f: Frame, rest: seq<Byte>)
    requires Idle(p) && p.destroyed && p.phase == ReadLength && Reset(p) && p.message == []
    requires Sendable(f) && |f.payload| <= p.maxSize
    ensures var res := Recv(p, Encoded(f) + rest).value;
            !res.ok && res.frames == [f]
  {
    var L := FrameLength(f.kind, f.service, f.methodId, f.id, f.payload);
    EncodedParts(f, rest);
    var r, o := LoopFields(p.(receiving := true), Encoded(f) + rest, L, Header(f.kind, f.service), f.methodId, f.id, f.payload + rest);
    DestroyedPayload(r, Encoded(f) + rest, o, f, rest);
  }

  /** The payload turn of a destroyed parser: the frame is reported and the
      rest of the chunk is skipped. */
  lemma DestroyedPayload(r: Run, data: seq<Byte>, o: nat, f: Frame, rest: seq<Byte>)
    requires Sendable(f) && r.frames == [] && Valid(r.parser) && r.parser.destroyed
    requires r.parser.phase == ReadPayload && r.parser.length == |f.payload| && r.parser.message == []
    requires r.parser.header == Header(f.kind, f.service)
    requires r.parser.methodId == f.methodId && r.parser.id == f.id
    requires o <= |data| && data[o..] == f.payload + rest
    ensures var l := Loop(r, data, o);
            var g := if Pending(l.parser) then ReadMessage(l, data, |data|).run else l;
            g.parser.destroyed && g.frames == [f]
  {
    var q := r.parser.(message := f.payload);
    assert Slice(data, o, o + |f.payload|) == f.payload by {
      assert data[o..o + |f.payload|] == data[o..][..|f.payload|];
    }
    assert r.parser.message + f.payload == f.payload;
    if o < |data| {
      assert Iterate(r, data, o) == Cursor(Emit(Run(q, [])), |data|);
    } else {
      assert f.payload == [];
      assert ReadMessage(r, data, |data|).run == Emit(Run(q, []));
    }
  }
}

=== FILE: calltable.dfy ===
/** The table of outstanding calls in index.js: `requests` holds the pending
    entry for each call id (or `null` once answered) and `free` is a stack of
    ids that may be handed out again. */
module CallTable {
  import opened Wrappers

  datatype Table<T> = Table(requests: seq<Option<T>>, free: seq<nat>)

  /** The result of allocating an id. */
  datatype Allocation<T> = Allocation(table: Table<T>, id: nat)

  /** The result of releasing an id: the entry that was pending there, or
      `None` when there was none (the endpoint then destroys itself). */
  datatype Release<T> = Release(table: Table<T>, call: Option<T>)

  /** The table of a new endpoint. */
  function Empty<T>(): Table<T>
  {
    Table([], [])
  }

  /** Whether `id` has a pending entry. */
  predicate Busy<T>(t: Table<T>, id: nat)
  {
    id < |t.requests| && t.requests[id].Some?
  }

  /** The number of slots holding a pending entry. */
  function Pending<T>(rs: seq<Option<T>>): nat
  {
    if |rs| == 0 then 0 else Pending(rs[..|rs| - 1]) + (if rs[|rs| - 1].Some? then 1 else 0)
  }

  /** The free list holds each empty slot exactly once and nothing else. */
  ghost predicate Valid<T>(t: Table<T>)
  {
    (forall i, j :: 0 <= i < j < |t.free| ==> t.free[i] != t.free[j])
    && (forall i :: 0 <= i < |t.free| ==> t.free[i] < |t.requests| && t.requests[t.free[i]].None?)
    && (forall k :: 0 <= k < |t.requests| && t.requests[k].None? ==> k in t.free)
  }

  /** `inflightRequests`: slots minus free ids. */
  function InFlight<T>(t: Table<T>): int
  {
    |t.requests| - |t.free|
  }

  /** Adding a slot that is at once on the free stack keeps the table valid. */
  lemma GrowValid<T>(t: Table<T>)
    requires Valid(t)
    ensures Valid(Table(t.requests + [None], t.free + [|t.requests|]))
  {
  }

  /** Taking the top of the free stack and filling its slot keeps the table
      valid. */
  lemma TakeValid<T>(t: Table<T>, call: T)
    requires Valid(t) && |t.free| > 0
    ensures Valid(Table(t.requests[t.free[|t.free| - 1] := Some(call)], t.free[..|t.free| - 1]))
  {
    var id := t.free[|t.free| - 1];
    var u := Table(t.requests[id := Some(call)], t.free[..|t.free| - 1]);
    forall k | 0 <= k < |u.requests| && u.requests[k].None?
      ensures k in u.free
    {
      var j :| 0 <= j < |t.free| && t.free[j] == k;
      assert j != |t.free| - 1;
      assert u.free[j] == k;
    }
  }

  /** `_request`'s id allocation: pop the most recently freed id, or grow the
      table by one slot when none is free; then store the call there. */
  function Request<T>(t: Table<T>, call: T): (a: Allocation<T>)
    requires Valid(t)
    ensures Valid(a.table)
    ensures !Busy(t, a.id) && Busy(a.table, a.id) && a.table.requests[a.id] == Some(call)
    ensures |a.table.requests| >= |t.requests|
    ensures forall i :: 0 <= i < |t.requests| && i != a.id ==> a.table.requests[i] == t.requests[i]
    ensures |t.free| > 0 ==> a.id == t.free[|t.free| - 1] && |a.table.requests| == |t.requests|
    ensures |t.free| > 0 ==> a.table.free == t.free[..|t.free| - 1]
    ensures |t.free| == 0 ==> a.id == |t.requests| && |a.table.requests| == |t.requests| + 1
    ensures InFlight(a.table) == InFlight(t) + 1
  {
    var grown := if |t.free| == 0 then Table(t.requests + [None], t.free + [|t.requests|]) else t;
    assert Valid(grown) by { if |t.free| == 0 { GrowValid(t); } }
    TakeValid(grown, call);
    var id := grown.free[|grown.free| - 1];
    Allocation(Table(grown.requests[id := Some(call)], grown.free[..|grown.free| - 1]), id)
  }

  /** `_free(id)`: release an occupied id, pushing it on the free stack and
      returning its entry; an id with no entry changes nothing. */
  function Free<T>(t: Table<T>, id: nat): (r: Release<T>)
    requires Valid(t)
    ensures Valid(r.table)
    ensures r.call.Some? <==> Busy(t, id)
    ensures r.call.None? ==> r.table == t
    ensures r.call.Some? ==>
      && r.call == t.requests[id]
      && !Busy(r.table, id)
      && r.table.requests == t.requests[id := None]
      && r.table.free == t.free + [id]
      && InFlight(r.table) == InFlight(t) - 1
  {
    if id < |t.requests| && t.requests[id].Some? then
      assert id !in t.free;
      Release(Table(t.requests[id := None], t.free + [id]), t.requests[id])
    else
      Release(t, None)
  }

  /** `s` without its element at `j`. */
  function RemoveAt(s: seq<nat>, j: nat): (r: seq<nat>)
    requires j < |s|
    ensures |r| == |s| - 1
    ensures forall a :: 0 <= a < |r| ==> r[a] == s[if a < j then a else a + 1]
  {
    s[..j] + s[j + 1..]
  }

  /** Dropping an empty last slot together with its free-list entry keeps
      the table valid. */
  lemma DropFreeSlot<T>(t: Table<T>, j: nat)
    requires Valid(t) && |t.requests| > 0 && j < |t.free| && t.free[j] == |t.requests| - 1
    ensures Valid(Table(t.requests[..|t.requests| - 1], RemoveAt(t.free, j)))
  {
    var n := |t.requests| - 1;
    var u := Table(t.requests[..n], RemoveAt(t.free, j));
    forall k | 0 <= k < |u.requests| && u.requests[k].None? ensures k in u.free {
      var i :| 0 <= i < |t.free| && t.free[i] == k;
      assert i != j;
      if i < j { assert u.free[i] == k; } else { assert u.free[i - 1] == k; }
    }
  }

  /** Dropping the last slot, and its id from the free stack when it is
      there, keeps the table valid. */
  lemma ShrinkValid<T>(t: Table<T>) returns (u: Table<T>)
    requires Valid(t) && |t.requests| > 0
    ensures Valid(u) && u.requests == t.requests[..|t.requests| - 1]
    ensures |u.free| == |t.free| - (if t.requests[|t.requests| - 1].None? then 1 else 0)
  {
    var n := |t.requests| - 1;
    if t.requests[n].None? {
      var j :| 0 <= j < |t.free| && t.free[j] == n;
      DropFreeSlot(t, j);
      u := Table(t.requests[..n], RemoveAt(t.free, j));
    } else {
      u := Table(t.requests[..n], t.free);
    }
  }

  /** The first element of `s`, or 0 when it is empty. */
  function Top(s: seq<nat>): nat
  {
    if |s| > 0 then s[0] else 0
  }

  /** `inflightRequests` counts exactly the calls awaiting an answer. */
  lemma {:induction false} InFlightCountsPending<T>(t: Table<T>)
    requires Valid(t)
    ensures InFlight(t) == Pending(t.requests)
    decreases |t.requests|
  {
    if |t.requests| == 0 {
      assert Top(t.free) < |t.requests| || |t.free| == 0;
    } else {
      var u := ShrinkValid(t);
      InFlightCountsPending(u);
    }
  }

  /** A new endpoint's first call gets id 0, the id a request without a
      reply also uses. */
  lemma FirstIdIsZero<T>(call: T)
    ensures Request(Empty(), call).id == 0
  {
  }

  /** An id freed by an answer is the next one handed out. */
  lemma FreedIdReused<T>(t: Table<T>, id: nat, call: T)
    requires Valid(t) && Busy(t, id)
    ensures Request(Free(t, id).table, call).id == id
  {
  }

  /** An answered id cannot be answered twice. */
  lemma NoDoubleFree<T>(t: Table<T>, id: nat)
    requires Valid(t)
    ensures Free(Free(t, id).table, id).call.None?
  {
  }

  /** Issue one request per element of `calls`, in order. */
  function RequestAll<T>(t: Table<T>, calls: seq<T>): (r: Table<T>)
    requires Valid(t)
    ensures Valid(r)
    decreases |calls|
  {
    if |calls| == 0 then t else RequestAll(Request(t, calls[0]).table, calls[1..])
  }

  /** The ids the requests of `RequestAll` receive. */
  function IdsOf<T>(t: Table<T>, calls: seq<T>): (ids: seq<nat>)
    requires Valid(t)
    ensures |ids| == |calls|
    decreases |calls|
  {
    if |calls| == 0 then []
    else
      var a := Request(t, calls[0]);
      [a.id] + IdsOf(a.table, calls[1..])
  }

  /** The first `n` elements popped off the stack `s` (top at the end). */
  function Popped(s: seq<nat>, n: nat): (r: seq<nat>)
    requires n <= |s|
    ensures |r| == n
    ensures forall k :: 0 <= k < n ==> r[k] == s[|s| - 1 - k]
  {
    if n == 0 then [] else [s[|s| - 1]] + Popped(s[..|s| - 1], n - 1)
  }

  /** Popping `n` ids is popping the top one, then `n - 1` from the rest. */
  lemma PoppedCons(s: seq<nat>, n: nat, top: nat, below: seq<nat>, rest: seq<nat>)
    requires 0 < n <= |s|
    requires top == s[|s| - 1] && below == s[..|s| - 1]
    requires rest == Popped(below, n - 1)
    ensures [top] + rest == Popped(s, n)
  {
  }

  /** While free ids remain, new requests do not grow the table. */
  lemma {:induction false} RequestsKeepSize<T>(t: Table<T>, calls: seq<T>)
    requires Valid(t) && |calls| <= |t.free|
    ensures |RequestAll(t, calls).requests| == |t.requests|
    decreases |calls|
  {
    if |calls| > 0 {
      var a := Request(t, calls[0]);
      assert RequestAll(t, calls) == RequestAll(a.table, calls[1..]);
      RequestsKeepSize(a.table, calls[1..]);
    }
  }

  /** While free ids remain, new requests take them from the top of the free
      stack: as many calls as were answered are issued again on exactly the
      answered ids, most recently answered first. */
  lemma {:induction false} RequestsReuseFreeIds<T>(t: Table<T>, calls: seq<T>)
    requires Valid(t) && |calls| <= |t.free|
    ensures IdsOf(t, calls) == Popped(t.free, |calls|)
    decreases |calls|
  {
    if |calls| > 0 {
      var a := Request(t, calls[0]);
      var rest := IdsOf(a.table, calls[1..]);
      assert IdsOf(t, calls) == [a.id] + rest;
      assert rest == Popped(a.table.free, |calls| - 1) by {
        RequestsReuseFreeIds(a.table, calls[1..]);
      }
      PoppedCons(t.free, |calls|, a.id, a.table.free, rest);
    }
  }
}

=== FILE: codecs.dfy ===
/** The built-in payload codecs of index.js, `BINARY`, `NULL` and `ERROR`.
    Each has `encode(value, buf, offset)`, `decode(buf, offset)` and
    `encodingLength(value)`. Strings are taken to be their UTF-8 bytes, and an
    `Error` object is represented by its message bytes. */
module Codecs {
  import opened Wrappers
  import opened Varint

  /** The codec a method names: one of the built-ins, or a codec supplied
      by the caller, known only by a tag. */
  datatype Codec = Binary | Null | ErrorCodec | Custom(tag: nat)

  /** What a codec decodes to: bytes (`BINARY`), `null` (`NULL`), an
      `Error` with the given message (`ERROR`), or a caller-defined value. */
  datatype Value = Bytes(data: seq<Byte>) | NullValue | ErrorValue(message: seq<Byte>) | Other(tag: nat)

  /** A caller-supplied codec's `decode`: `None` when it throws. */
  type CustomDecoder = (nat, seq<Byte>) -> Option<Value>

  /** `src.copy(dst.slice(at))`: as many bytes of `src` as fit, written into
      `dst` from `at` on; nothing when `at` is past the end. */
  function CopyInto(src: seq<Byte>, dst: seq<Byte>, at: nat): (r: seq<Byte>)
    ensures |r| == |dst|
    ensures at + |src| <= |dst| ==> r[at..at + |src|] == src
    ensures forall i :: at <= i < |dst| && i < at + |src| ==> r[i] == src[i - at]
    ensures forall i :: 0 <= i < |dst| && (i < at || i >= at + |src|) ==> r[i] == dst[i]
  {
    if at >= |dst| then dst
    else
      var n := if |src| <= |dst| - at then |src| else |dst| - at;
      dst[..at] + src[..n] + dst[at + n..]
  }

  /** `BINARY.encodingLength(data)`: the size of what `encode` returns
      when it is given no buffer. */
  function BinaryEncodingLength(data: seq<Byte>): (n: nat)
    ensures n == |BinaryEncode(data, None, 0)|
  {
    |data|
  }

  /** `BINARY.encode(data, buf, offset)`: the data itself when no buffer is
      given, otherwise the buffer with the data copied in at `offset`. */
  function BinaryEncode(data: seq<Byte>, buf: Option<seq<Byte>>, offset: nat): (r: seq<Byte>)
    ensures buf.None? ==> r == data
    ensures buf.Some? ==> |r| == |buf.value|
    ensures buf.Some? && offset + |data| <= |buf.value| ==> r[offset..offset + |data|] == data
  {
    match buf
    case None => data
    case Some(b) => CopyInto(data, b, offset)
  }

  /** `BINARY.decode(buf, offset)`: everything from `offset` on, so that the
      bytes before the offset followed by the decoded bytes are the buffer. */
  function BinaryDecode(buf: seq<Byte>, offset: nat): (r: seq<Byte>)
    ensures offset <= |buf| ==> buf[..offset] + r == buf
    ensures offset > |buf| ==> r == []
  {
    if offset <= |buf| then buf[offset..] else []
  }

  /** Decoding what was encoded into a buffer of exactly the right size
      gives the data back. */
  lemma BinaryRoundTrip(data: seq<Byte>, buf: seq<Byte>)
    requires |buf| == BinaryEncodingLength(data)
    ensures BinaryDecode(BinaryEncode(data, Some(buf), 0), 0) == data
  {
    var r := BinaryEncode(data, Some(buf), 0);
    assert r[0..|data|] == data;
  }

  /** `NULL.encodingLength`: always 0, the size of what `encode` returns
      when it is given no buffer. */
  function NullEncodingLength(): (n: nat)
    ensures n == |NullEncode(None)|
  {
    0
  }

  /** `NULL.encode(data, buf)`: the buffer untouched, or an empty one. */
  function NullEncode(buf: Option<seq<Byte>>): (r: seq<Byte>)
    ensures buf.Some? ==> r == buf.value
    ensures buf.None? ==> r == []
  {
    buf.GetOr([])
  }

  /** `NULL.decode`: always `null`, whatever the bytes. */
  function NullDecode(buf: seq<Byte>, offset: nat): (v: Value)
    ensures v == NullValue
  {
    NullValue
  }

  /** `ERROR.encodingLength(err)`: the byte length of the message. */
  function ErrorEncodingLength(message: seq<Byte>): (n: nat)
    ensures n == |ErrorEncode(message, None, 0)|
    ensures n == |message|
  {
    BinaryEncodingLength(message)
  }

  /** `ERROR.encode(err, buf, offset)`: the message, written as `BINARY`. */
  function ErrorEncode(message: seq<Byte>, buf: Option<seq<Byte>>, offset: nat): (r: seq<Byte>)
    ensures buf.None? ==> r == message
    ensures buf.Some? ==> |r| == |buf.value|
    ensures buf.Some? && offset + |message| <= |buf.value| ==> r[offset..offset + |message|] == message
  {
    BinaryEncode(message, buf, offset)
  }

  /** `ERROR.decode(buf, offset)`: an `Error` whose message is the bytes. */
  function ErrorDecode(buf: seq<Byte>, offset: nat): (v: Value)
    ensures v.ErrorValue?
    ensures offset <= |buf| ==> buf[..offset] + v.message == buf
    ensures offset > |buf| ==> v.message == []
  {
    ErrorValue(BinaryDecode(buf, offset))
  }

  /** An error's message survives encoding and decoding. */
  lemma ErrorRoundTrip(message: seq<Byte>, buf: seq<Byte>)
    requires |buf| == ErrorEncodingLength(message)
    ensures ErrorDecode(ErrorEncode(message, Some(buf), 0), 0) == ErrorValue(message)
  {
    BinaryRoundTrip(message, buf);
  }

  /** `NULL` writes nothing and reads `null` back from whatever it wrote. */
  lemma NullRoundTrip(buf: seq<Byte>)
    ensures |NullEncode(None)| == NullEncodingLength()
    ensures NullDecode(NullEncode(Some(buf)), 0) == NullValue
  {
  }

  /** The built-in codecs' `encodingLength` agrees with the length of what
      `encode` returns when it is given no buffer. */
  lemma EncodingLengthsAgree(data: seq<Byte>)
    ensures |BinaryEncode(data, None, 0)| == BinaryEncodingLength(data)
    ensures |ErrorEncode(data, None, 0)| == ErrorEncodingLength(data)
    ensures |NullEncode(None)| == NullEncodingLength()
  {
  }

  /** `codec.decode(message)` as the dispatcher calls it (no offset): `None`
      when the codec throws. The built-ins never throw. */
  function Decode(c: Codec, message: seq<Byte>, custom: CustomDecoder): (v: Option<Value>)
    ensures !c.Custom? ==> v.Some?
    ensures c == Binary ==> v == Some(Bytes(message))
    ensures c == Null ==> v == Some(NullValue)
    ensures c == ErrorCodec ==> v == Some(ErrorValue(message))
  {
    match c
    case Binary => Some(Bytes(BinaryDecode(message, 0)))
    case Null => Some(NullDecode(message, 0))
    case ErrorCodec => Some(ErrorDecode(message, 0))
    case Custom(tag) => custom(tag, message)
  }
}

=== FILE: delivery.dfy ===
/** Chunked delivery of frames written by `send`. The one check that depends
    on where a chunk ends is the overlong-varint check at the end of
    `_readVarint`, and it fires only after eight varint bytes; a stream whose
    varints all fit in eight bytes therefore survives every cutting into
    chunks, and the chunks report exactly the frames sent. */
module Delivery {
  import opened Wrappers
  import opened Varint
  import opened Framing
  import opened Parser
  import opened Stream
  import opened Chunking
  import opened RoundTrip

  /** A frame `send` accepts whose four varints fit in eight bytes each
      (the header always does: it is below 2^31). */
  predicate Small(f: Frame)
  {
    && Sendable(f)
    && FrameLength(f.kind, f.service, f.methodId, f.id, f.payload) < Pow128(8)
    && f.methodId < Pow128(8) && f.id < Pow128(8)
  }

  /** Alive, with fewer than eight bytes of the current varint read: a chunk
      may end here without the overlong-varint check destroying the parser. */
  predicate Fine(p: Parser)
  {
    !p.destroyed && p.consumed < 8
  }

  /** Every state the reference passes through while reading `s` from `r`,
      the first and the last included, is `Fine`. */
  predicate Safe(r: Run, s: seq<Byte>)
    decreases |s|
  {
    Fine(r.parser) && (|s| > 0 ==> Safe(Feed(r, s[0]), s[1..]))
  }

  // ---------------------------------------------------------------------
  // Algebra of Safe

  lemma {:induction false} SafeEnd(r: Run, s: seq<Byte>)
    requires Safe(r, s)
    ensures Fine(Fold(r, s).parser)
    decreases |s|
  {
    if |s| > 0 {
      SafeEnd(Feed(r, s[0]), s[1..]);
    }
  }

  /** A concatenation is read safely exactly when both parts are, the
      second from where the first leaves the reference. */
  lemma {:induction false} SafeAppend(r: Run, a: seq<Byte>, b: seq<Byte>)
    ensures Safe(r, a + b) <==> Safe(r, a) && Safe(Fold(r, a), b)
    decreases |a|
  {
    if |a| == 0 {
      assert a + b == b;
    } else {
      assert (a + b)[0] == a[0] && (a + b)[1..] == a[1..] + b;
      SafeAppend(Feed(r, a[0]), a[1..], b);
    }
  }

  /** Reading on from a state whose finished payload is not yet reported is
      safe when reading on from the state that reports it is. */
  lemma SafeFlush(g: Run, s: seq<Byte>)
    requires Fine(g.parser) && Safe(Flush(g), s)
    ensures Safe(g, s)
  {
    if |s| > 0 {
      assert Flush(Flush(g)) == Flush(g);
      assert Feed(g, s[0]) == Feed(Flush(g), s[0]);
    }
  }

  // ---------------------------------------------------------------------
  // The bytes of one frame

  /** The bytes of a varint are read safely when it starts with room for
      all of them and the field it completes leaves the parser fine. */
  lemma {:induction false} EncodeSafe(r: Run, n: nat)
    requires r.parser.phase != ReadPayload && !r.parser.destroyed
    requires r.parser.consumed + |Encode(n)| <= 8
    requires Fine(NextState(Run(Absorb(r.parser, n), r.frames)).run.parser)
    ensures Safe(r, Encode(n))
    decreases n
  {
    var p := r.parser;
    var s := Encode(n);
    if n < 128 {
      assert s == [n] && s[1..] == [];
      AbsorbOne(p, n);
      assert Feed(r, n) == NextState(Run(Absorb(p, n), r.frames)).run;
    } else {
      var b := n % 128 + 128;
      var q := Accumulate(p, b);
      var r1 := Run(q.(factor := q.factor * 128), r.frames);
      assert s[0] == b && s[1..] == Encode(n / 128);
      assert Feed(r, b) == r1;
      AbsorbStep(p, n);
      EncodeSafe(r1, n / 128);
    }
  }

  /** A varint field of at most eight bytes read from a reset accumulator,
      followed by bytes read safely from the state it leaves. */
  lemma FieldThen(r: Run, n: nat, s: seq<Byte>)
    requires r.parser.phase != ReadPayload && Reset(r.parser) && !r.parser.destroyed
    requires n < Pow128(8)
    requires Fine(NextState(Run(Absorb(r.parser, n), r.frames)).run.parser)
    requires Safe(Fold(r, Encode(n)), s)
    ensures Safe(r, Encode(n) + s)
  {
    AtMostEightBytes(n);
    EncodingLengthIsLength(n);
    EncodeSafe(r, n);
    SafeAppend(r, Encode(n), s);
  }

  /** Payload bytes never touch the varint count. */
  lemma {:induction false} PayloadSafe(r: Run, s: seq<Byte>)
    requires r.parser.phase == ReadPayload && |s| <= r.parser.length
    requires r.parser.consumed == 0 && !r.parser.destroyed
    ensures Safe(r, s)
    decreases |s|
  {
    if |s| > 0 {
      var p := r.parser;
      assert Feed(r, s[0]) == Run(p.(message := p.message + [s[0]], length := p.length - 1), r.frames);
      PayloadSafe(Feed(r, s[0]), s[1..]);
    }
  }

  /** The id and the payload, from the id phase. */
  lemma IdSafe(r: Run, f: Frame)
    requires r.parser.phase == ReadId && Reset(r.parser) && !r.parser.destroyed
    requires f.id < Pow128(8) && r.parser.length - EncodingLength(f.id) == |f.payload| <= r.parser.maxSize
    ensures Safe(r, Encode(f.id) + f.payload)
  {
    IdStep(r.parser, f.id, r.frames);
    IdField(r, f.id);
    PayloadSafe(Fold(r, Encode(f.id)), f.payload);
    FieldThen(r, f.id, f.payload);
  }

  /** The method, the id and the payload, from the method phase. */
  lemma MethodSafe(r: Run, f: Frame)
    requires r.parser.phase == ReadMethod && Reset(r.parser) && !r.parser.destroyed
    requires f.methodId < Pow128(8) && f.id < Pow128(8)
    requires r.parser.length - EncodingLength(f.methodId) - EncodingLength(f.id) == |f.payload| <= r.parser.maxSize
    ensures Safe(r, Encode(f.methodId) + (Encode(f.id) + f.payload))
  {
    MethodStep(r.parser, f.methodId, r.frames);
    MethodField(r, f.methodId);
    IdSafe(Fold(r, Encode(f.methodId)), f);
    FieldThen(r, f.methodId, Encode(f.id) + f.payload);
  }

  /** The header onwards, from the header phase. */
  lemma HeaderSafe(r: Run, f: Frame)
    requires Small(f) && r.parser.phase == ReadHeader && Reset(r.parser) && !r.parser.destroyed
    requires r.parser.length == FrameLength(f.kind, f.service, f.methodId, f.id, f.payload)
    requires |f.payload| <= r.parser.maxSize
    ensures Safe(r, Encode(Header(f.kind, f.service)) + (Encode(f.methodId) + (Encode(f.id) + f.payload)))
  {
    var h := Header(f.kind, f.service);
    assert h < Pow128(8) by {
      assert Pow128(4) == 268435456 && Pow128(5) == 128 * Pow128(4);
      assert Pow128(6) == 128 * Pow128(5) && Pow128(7) == 128 * Pow128(6);
      assert Pow128(8) == 128 * Pow128(7);
    }
    HeaderStep(r.parser, h, r.frames);
    HeaderField(r, h);
    MethodSafe(Fold(r, Encode(h)), f);
    FieldThen(r, h, Encode(f.methodId) + (Encode(f.id) + f.payload));
  }

  /** Every state met while reading one small frame from a boundary is
      fine. */
  lemma FrameSafe(r: Run, f: Frame)
    requires Boundary(r.parser) && Small(f) && |f.payload| <= r.parser.maxSize
    ensures Safe(r, Encoded(f))
  {
    var h := Header(f.kind, f.service);
    var L := FrameLength(f.kind, f.service, f.methodId, f.id, f.payload);
    var tail := Encode(h) + (Encode(f.methodId) + (Encode(f.id) + f.payload));
    EncodedParts(f, []);
    LengthStep(r.parser, L, r.frames);
    LengthField(r, L);
    HeaderSafe(Fold(r, Encode(L)), f);
    FieldThen(r, L, tail);
  }

  /** Every state met while reading a stream of small frames from a
      boundary is fine. */
  lemma {:induction false} StreamSafe(r: Run, fs: seq<Frame>)
    requires Boundary(r.parser)
    requires forall i :: 0 <= i < |fs| ==> Sendable(fs[i]) && Small(fs[i]) && |fs[i].payload| <= r.parser.maxSize
    ensures Safe(r, Wire(fs))
    decreases |fs|
  {
    if |fs| > 0 {
      var f := fs[0];
      assert Wire(fs) == Encoded(f) + Wire(fs[1..]);
      FrameSafe(r, f);
      ContinueAfterFrame(r, fs);
      FoldFrame(r, f);
      var g := Fold(r, Encoded(f));
      StreamSafe(Flush(g), fs[1..]);
      SafeFlush(g, Wire(fs[1..]));
      SafeAppend(r, Encoded(f), Wire(fs[1..]));
    }
  }

  // ---------------------------------------------------------------------
  // Chunks

  /** A `recv` of a chunk the reference reads safely, from a parser that
      agrees with the reference, succeeds and leaves a parser that agrees
      with the reference after the chunk. */
  lemma ChunkSurvives(q: Parser, x: Run, a: seq<Byte>)
    requires Idle(q) && Canon(q.(receiving := true)) == Canon(Flush(x).parser)
    requires Safe(x, a) && |a| > 0
    ensures var A := Recv(q, a).value;
            A.ok && Canon(A.parser.(receiving := true)) == Canon(Flush(Fold(x, a)).parser)
  {
    var q1 := q.(receiving := true);
    var fb := Fold(Run(q1, []), a);
    SplitSecond(x, q1, a);
    SafeEnd(x, a);
    var shifted := Run(fb.parser, Flush(x).frames + fb.frames);
    assert Canon(Fold(x, a).parser) == Canon(fb.parser);
    assert Guard(fb) == fb;
    RecvBridge(q, a);
    SameFlush(Fold(x, a), shifted);
    assert Flush(shifted).parser == Flush(fb).parser;
  }

  /** Chunks whose concatenation the reference reads safely are all
      received successfully. */
  lemma {:induction false} ChunksSurvive(q: Parser, x: Run, chunks: seq<seq<Byte>>)
    requires Idle(q) && Canon(q.(receiving := true)) == Canon(Flush(x).parser)
    requires Safe(x, Concat(chunks))
    ensures RecvChunks(q, chunks).ok
    decreases |chunks|
  {
    if |chunks| == 0 {
      assert Fine(x.parser);
    } else {
      var a := chunks[0];
      assert Concat(chunks) == a + Concat(chunks[1..]);
      SafeAppend(x, a, Concat(chunks[1..]));
      if |a| == 0 {
        assert Recv(q, a).value.parser == q;
        ChunksSurvive(q, x, chunks[1..]);
      } else {
        ChunkSurvives(q, x, a);
        ChunksSurvive(Recv(q, a).value.parser, Fold(x, a), chunks[1..]);
      }
    }
  }

  /** However a stream of frames whose varints fit in eight bytes is cut
      into chunks, every `recv` succeeds. */
  lemma ChunkedDeliverySucceeds(p: Parser, fs: seq<Frame>, chunks: seq<seq<Byte>>)
    requires Idle(p) && Boundary(p)
    requires forall i :: 0 <= i < |fs| ==> Sendable(fs[i]) && Small(fs[i]) && |fs[i].payload| <= p.maxSize
    requires Concat(chunks) == Wire(fs)
    ensures RecvChunks(p, chunks).ok
  {
    var r0 := Run(p.(receiving := true), []);
    StreamSafe(r0, fs);
    ChunksSurvive(p, r0, chunks);
  }

  /** However a stream of frames whose varints fit in eight bytes is cut
      into chunks, the chunks report exactly the frames sent. */
  lemma AnyChunking(p: Parser, fs: seq<Frame>, chunks: seq<seq<Byte>>)
    requires Idle(p) && Boundary(p)
    requires forall i :: 0 <= i < |fs| ==> Sendable(fs[i]) && Small(fs[i]) && |fs[i].payload| <= p.maxSize
    requires Concat(chunks) == Wire(fs)
    ensures RecvChunks(p, chunks).ok && RecvChunks(p, chunks).frames == fs
  {
    ChunkedDeliverySucceeds(p, fs, chunks);
    SplitIndependence(p, chunks);
    RecvStream(p, fs);
  }
}

=== FILE: framing.dfy ===
/** The wire frame written by `Parser.send`:
      varint(length) ++ varint(header) ++ varint(method) ++ varint(id) ++ payload
    where `header = (service << 2) | type` and `length` counts every byte after
    its own prefix. */
module Framing {
  import opened Varint

  /** Frame types (`IS_REQUEST`, `IS_RESPONSE`, `IS_ERROR`). */
  const Request: nat := 0
  const Response: nat := 1
  const Error: nat := 2

  const TwoTo29: nat := 0x2000_0000
  const TwoTo31: int := 0x8000_0000
  const TwoTo32: int := 0x1_0000_0000

  /** JavaScript's ToInt32: the operand conversion of every bitwise operator.
      A value already in the signed 32-bit range is its own conversion;
      any other is reduced modulo 2^32 into that range. */
  function Int32(x: int): (r: int)
    ensures -TwoTo31 <= r < TwoTo31
    ensures (r - x) % TwoTo32 == 0
  {
    if 0 <= x < TwoTo31 then x
    else
      var m := x % TwoTo32;
      if m >= TwoTo31 then m - TwoTo32 else m
  }

  /** `header & 3`: the frame type the parser reports. */
  function KindOf(header: nat): int
  {
    Int32(header) % 4
  }

  /** `header >> 2`: the service the parser reports (a sign-propagating shift,
      so a header of 2^31 or more yields a negative service). */
  function ServiceOf(header: nat): int
  {
    Int32(header) / 4
  }

  /** `(service << 2) | type` for the arguments `send` is meant for: a two-bit
      type and a service small enough that the shifted value stays a
      non-negative 32-bit integer, so that the parser's `& 3` and `>> 2`
      give both back. */
  function Header(kind: nat, service: nat): (h: nat)
    requires kind < 4 && service < TwoTo29
    ensures h < TwoTo31
    ensures h % 4 == kind
    ensures KindOf(h) == kind && ServiceOf(h) == service
  {
    service * 4 + kind
  }

  /** The byte count the length prefix announces. */
  function FrameLength(kind: nat, service: nat, methodId: nat, id: nat, body: seq<Byte>): nat
    requires kind < 4 && service < TwoTo29
  {
    |body| + EncodingLength(Header(kind, service)) + EncodingLength(methodId) + EncodingLength(id)
  }

  /** `send(type, service, method, id, message, enc)`, with `body` the bytes
      `enc` writes for `message`. */
  function Send(kind: nat, service: nat, methodId: nat, id: nat, body: seq<Byte>): (frame: seq<Byte>)
    requires kind < 4 && service < TwoTo29
  {
    Encode(FrameLength(kind, service, methodId, id, body))
      + Encode(Header(kind, service)) + Encode(methodId) + Encode(id) + body
  }

  /** The buffer `send` allocates is filled exactly: a length prefix encoding
      `L`, then `L` bytes, the payload last. */
  lemma FrameSize(kind: nat, service: nat, methodId: nat, id: nat, body: seq<Byte>)
    requires kind < 4 && service < TwoTo29
    ensures var L := FrameLength(kind, service, methodId, id, body);
            var frame := Send(kind, service, methodId, id, body);
            && |frame| == EncodingLength(L) + L
            && frame[..EncodingLength(L)] == Encode(L)
            && Value(frame[..EncodingLength(L)]) == L
            && frame[|frame| - |body|..] == body
  {
    var h := Header(kind, service);
    var L := FrameLength(kind, service, methodId, id, body);
    EncodingLengthIsLength(L);
    EncodingLengthIsLength(h);
    EncodingLengthIsLength(methodId);
    EncodingLengthIsLength(id);
    ValueOfEncode(L);
    var k := |Encode(L)|;
    var a1 := Encode(L) + Encode(h);
    var a2 := a1 + Encode(methodId);
    var a3 := a2 + Encode(id);
    PrefixOf(Encode(L), Encode(h), k);
    PrefixOf(a1, Encode(methodId), k);
    PrefixOf(a2, Encode(id), k);
    PrefixOf(a3, body, k);
    assert Encode(L)[..k] == Encode(L);
    SuffixOf(a3, body);
  }

  /** Cutting a concatenation inside its first part cuts that part. */
  lemma PrefixOf(a: seq<Byte>, b: seq<Byte>, n: nat)
    requires n <= |a|
    ensures (a + b)[..n] == a[..n]
  {
  }

  /** Dropping the first part of a concatenation leaves the second. */
  lemma SuffixOf(a: seq<Byte>, b: seq<Byte>)
    ensures (a + b)[|a|..] == b
  {
  }

  /** Past 31 bits the shift's sign propagation shows: for every header from
      2^31 up to 2^32 - 1 the parser reports the negative service that the
      header minus 2^32 shifts to, while the type is still the low two bits. */
  lemma HeaderSignWrap(h: nat)
    requires TwoTo31 <= h < TwoTo32
    ensures ServiceOf(h) == (h - TwoTo32) / 4 < 0
    ensures KindOf(h) == h % 4
  {
  }
}

=== FILE: parser.dfy ===
/** The resumable stream parser of parser.js: `recv` feeds it chunks split at
    arbitrary byte boundaries and it reports every complete frame through
    `onmessage`. The state is an immutable record; `recv` and its helpers
    `_readVarint`, `_readMessage` and `_nextState` are pure functions that
    return the next state together with the frames reported so far. */
module Parser {
  import opened Wrappers
  import opened Varint
  import opened Framing

  /** The constructor's default for `maxSize`: 8 MiB. */
  const DefaultMaxSize: nat := 8 * 1024 * 1024

  /** `_state` 0..4: the field being read. */
  datatype Phase = ReadLength | ReadHeader | ReadMethod | ReadId | ReadPayload

  /** The parser's fields. `message` holds the payload bytes received so far
      for the current frame; the empty sequence stands for `_message === null`
      (a partial copy always stores at least one byte, so the two never need
      telling apart). `receiving`, `destroyed` and `error` are the public
      fields of the same names. */
  datatype Parser = Parser(
    message: seq<Byte>,
    varint: nat,
    factor: nat,
    length: int,
    methodId: nat,
    header: nat,
    id: nat,
    phase: Phase,
    consumed: nat,
    maxSize: nat,
    receiving: bool,
    destroyed: bool,
    error: Option<string>)

  /** The first five arguments of one `onmessage` call: type, service,
      method, id and payload. The call also passes the current chunk and
      the offset where reading resumes; the endpoint ignores both, and they
      are not part of a frame. */
  datatype Frame = Frame(kind: int, service: int, methodId: nat, id: nat, payload: seq<Byte>)

  /** A parser together with the frames it has reported so far. */
  datatype Run = Run(parser: Parser, frames: seq<Frame>)

  /** What `_nextState` leaves behind and whether the caller may go on
      reading the current chunk. */
  datatype Next = Next(run: Run, proceed: bool)

  /** What `_readVarint`/`_readMessage` leave behind and the offset they
      return. */
  datatype Cursor = Cursor(run: Run, offset: nat)

  /** The outcome of one `recv`: the parser afterwards, the frames reported
      during the call, and the returned boolean. */
  datatype Received = Received(parser: Parser, frames: seq<Frame>, ok: bool)

  const MissingMethod := "Missing method"
  const MissingId := "Missing id"
  const TooLarge := "Incoming message is larger than max size"
  const InvalidVarint := "Incoming varint is invalid"
  const Recursive := "Cannot recursively receive data"

  /** `new Parser({ onmessage, maxSize })`. The model takes `onmessage` to
      be a function that returns normally without touching the parser, as
      the endpoint's `_onmessage` does; a parser built without one throws on
      its first complete frame, which is not modelled. */
  function NewParser(maxSize: nat): (p: Parser)
    ensures Idle(p) && !p.destroyed && p.maxSize == maxSize
  {
    Parser([], 0, 1, 0, 0, 0, 0, ReadLength, 0, maxSize, false, false, None)
  }

  /** The endpoint's parser, `new Parser({ onmessage })`: `maxSize` takes
      its default. */
  function EndpointParser(): (p: Parser)
    ensures Idle(p) && !p.destroyed && p.maxSize == 8 * 1024 * 1024
  {
    NewParser(DefaultMaxSize)
  }

  /** The invariant every reachable parser keeps: a live parser reading a
      payload still expects a non-negative number of bytes, and no varint is
      half-read while the payload is. */
  predicate Valid(p: Parser)
  {
    && (p.phase == ReadPayload && !p.destroyed ==> 0 <= p.length)
    && (p.phase == ReadPayload ==> p.consumed == 0)
  }

  /** A frame whose payload is complete but not yet reported. */
  predicate Pending(p: Parser)
  {
    p.phase == ReadPayload && p.length == 0
  }

  /** A parser between two `recv` calls. */
  predicate Idle(p: Parser)
  {
    Valid(p) && !p.receiving && !Pending(p)
  }

  /** `destroy(err)`: records the error when one is given and marks the
      parser destroyed. */
  function Destroy(p: Parser, err: Option<string>): (q: Parser)
    ensures q.destroyed
    ensures err.Some? ==> q.error == err
    ensures err.None? ==> q.error == p.error
    ensures q.(destroyed := p.destroyed, error := p.error) == p
  {
    p.(destroyed := true, error := if err.Some? then err else p.error)
  }

  /** One varint byte folded into the accumulator: `_varint += (b & 127) *
      _factor; _consumed++`. */
  function Accumulate(p: Parser, b: Byte): (q: Parser)
    ensures p.varint <= q.varint <= p.varint + 127 * p.factor
    ensures q.consumed == p.consumed + 1
    ensures q.(varint := p.varint, consumed := p.consumed) == p
  {
    var digit := b % 128;
    DigitWeight(digit, p.factor);
    p.(varint := p.varint + digit * p.factor, consumed := p.consumed + 1)
  }

  /** A seven-bit digit at weight `factor` adds at most 127 times the weight. */
  lemma DigitWeight(digit: nat, factor: nat)
    requires digit < 128
    ensures digit * factor <= 127 * factor
  {
    assert (127 - digit) * factor >= 0;
  }

  /** The `onmessage` call of `_nextState` case 4, with the reset around it. */
  function Emit(r: Run): (e: Run)
    ensures e.parser.phase == ReadLength && e.parser.message == []
    ensures e.parser.destroyed == r.parser.destroyed
    ensures e.frames == r.frames + [Frame(KindOf(r.parser.header), ServiceOf(r.parser.header),
                                          r.parser.methodId, r.parser.id, r.parser.message)]
  {
    var p := r.parser;
    Run(p.(phase := ReadLength, message := []),
        r.frames + [Frame(KindOf(p.header), ServiceOf(p.header), p.methodId, p.id, p.message)])
  }

  /** Moves a varint field's value, or a finished payload, to where it
      belongs and checks the length accounting. */
  function NextState(r: Run): (n: Next)
    ensures !n.proceed ==> n.run.parser.destroyed
    ensures r.parser.destroyed ==> n.run.parser.destroyed
    ensures n.run.parser.maxSize == r.parser.maxSize
    ensures n.run.parser.receiving == r.parser.receiving
    ensures r.parser.phase != ReadPayload ==> n.run.frames == r.frames && n.run.parser.consumed == 0
    ensures r.parser.phase == ReadPayload ==> n.run == Emit(r)
    ensures Valid(r.parser) ==> Valid(n.run.parser)
  {
    var p := r.parser;
    match p.phase
    case ReadLength =>
      var q := p.(phase := if p.varint == 0 then ReadLength else ReadHeader,
                  factor := 1, length := p.varint, consumed := 0, varint := 0);
      Next(Run(q, r.frames), true)
    case ReadHeader =>
      var q := p.(phase := ReadMethod, factor := 1, header := p.varint,
                  length := p.length - p.consumed, consumed := 0, varint := 0);
      if q.length <= 0 then Next(Run(Destroy(q, Some(MissingMethod)), r.frames), false)
      else Next(Run(q, r.frames), true)
    case ReadMethod =>
      var q := p.(phase := ReadId, factor := 1, methodId := p.varint,
                  length := p.length - p.consumed, consumed := 0, varint := 0);
      if q.length <= 0 then Next(Run(Destroy(q, Some(MissingId)), r.frames), false)
      else Next(Run(q, r.frames), true)
    case ReadId =>
      var q := p.(phase := ReadPayload, factor := 1, id := p.varint,
                  length := p.length - p.consumed, consumed := 0, varint := 0);
      if q.length < 0 || q.length > q.maxSize then Next(Run(Destroy(q, Some(TooLarge)), r.frames), false)
      else Next(Run(q, r.frames), true)
    case ReadPayload =>
      Next(Emit(r), !p.destroyed)
  }

  /** The check at the end of `_readVarint` when the chunk ran out inside a
      varint: eight or more bytes without a terminator destroy the parser. */
  function Guard(r: Run): (g: Run)
    ensures g.frames == r.frames
    ensures g.parser.destroyed <==> r.parser.destroyed || r.parser.consumed >= 8
    ensures !g.parser.destroyed ==> g == r
  {
    if r.parser.consumed >= 8 then Run(Destroy(r.parser, Some(InvalidVarint)), r.frames) else r
  }

  /** `Buffer.prototype.slice(start, end)`: negative bounds count from the
      end, both are clamped into the buffer, and an empty range gives an
      empty buffer. */
  function Slice(data: seq<Byte>, start: int, end: int): (s: seq<Byte>)
    ensures 0 <= start <= end <= |data| ==> s == data[start..end]
  {
    var s := Clamp(if start < 0 then start + |data| else start, |data|);
    var e := Clamp(if end < 0 then end + |data| else end, |data|);
    if e <= s then [] else data[s..e]
  }

  function Clamp(x: int, len: nat): (c: nat)
    ensures c <= len
    ensures 0 <= x <= len ==> c == x
  {
    if x < 0 then 0 else if x > len then len else x
  }

  /** `_readVarint(data, offset)`: folds bytes into the current varint until
      one without the continuation bit completes it. */
  function ReadVarint(r: Run, data: seq<Byte>, offset: nat): (c: Cursor)
    requires offset <= |data|
    requires r.parser.phase != ReadPayload
    requires Valid(r.parser)
    ensures offset <= c.offset <= |data|
    ensures offset < |data| ==> offset < c.offset
    ensures Valid(c.run.parser)
    ensures r.parser.destroyed ==> c.run.parser.destroyed
    ensures c.run.parser.maxSize == r.parser.maxSize
    ensures c.run.parser.receiving == r.parser.receiving
    ensures c.run.frames == r.frames
    decreases |data| - offset
  {
    if offset == |data| then
      Cursor(Guard(r), |data|)
    else
      var b := data[offset];
      var p := Accumulate(r.parser, b);
      if b < 128 then
        var n := NextState(Run(p, r.frames));
        Cursor(n.run, if n.proceed then offset + 1 else |data|)
      else
        ReadVarint(Run(p.(factor := p.factor * 128), r.frames), data, offset + 1)
  }

  /** `_readMessage(data, offset)`: completes the payload from this chunk
      when enough bytes are left, and otherwise stores what there is and
      waits for the next chunk. */
  function ReadMessage(r: Run, data: seq<Byte>, offset: nat): (c: Cursor)
    requires offset <= |data|
    requires r.parser.phase == ReadPayload
    requires Valid(r.parser)
    ensures offset <= c.offset <= |data|
    ensures offset < |data| ==> offset < c.offset || c.run.parser.phase == ReadLength
    ensures Valid(c.run.parser)
    ensures r.parser.destroyed ==> c.run.parser.destroyed
    ensures c.run.parser.maxSize == r.parser.maxSize
    ensures c.run.parser.receiving == r.parser.receiving
  {
    var p := r.parser;
    var free := |data| - offset;
    if free >= p.length then
      var q := p.(message := p.message + Slice(data, offset, offset + p.length));
      var n := NextState(Run(q, r.frames));
      Cursor(n.run, if n.proceed then offset + p.length else |data|)
    else
      Cursor(Run(p.(message := p.message + data[offset..], length := p.length - free), r.frames), |data|)
  }

  /** One turn of the `while (offset < data.length)` loop of `recv`. */
  function Iterate(r: Run, data: seq<Byte>, offset: nat): (c: Cursor)
    requires offset < |data|
    requires Valid(r.parser)
    ensures offset <= c.offset <= |data|
    ensures offset < c.offset || (r.parser.phase == ReadPayload && c.run.parser.phase == ReadLength)
    ensures Valid(c.run.parser)
    ensures r.parser.destroyed ==> c.run.parser.destroyed
    ensures c.run.parser.maxSize == r.parser.maxSize
    ensures c.run.parser.receiving == r.parser.receiving
  {
    if r.parser.phase == ReadPayload then ReadMessage(r, data, offset)
    else ReadVarint(r, data, offset)
  }

  /** The whole loop of `recv`, from `offset` to the end of the chunk. */
  function Loop(r: Run, data: seq<Byte>, offset: nat): (l: Run)
    requires offset <= |data|
    requires Valid(r.parser)
    ensures Valid(l.parser)
    ensures r.parser.destroyed ==> l.parser.destroyed
    ensures l.parser.maxSize == r.parser.maxSize
    ensures l.parser.receiving == r.parser.receiving
    decreases |data| - offset, if r.parser.phase == ReadPayload then 1 else 0
  {
    if offset == |data| then r
    else
      var c := Iterate(r, data, offset);
      Loop(c.run, data, c.offset)
  }

  /** `recv(data)`. It throws when called while already receiving; otherwise
      it parses the chunk, reports a frame whose empty remainder coincides
      with the end of the chunk, and returns whether the parser is still
      alive. */
  function Recv(p: Parser, data: seq<Byte>): (res: Result<Received, string>)
    requires Valid(p)
    ensures res.Failure? <==> p.receiving
    ensures res.Failure? ==> res.error == Recursive
    ensures res.Success? ==> && Idle(res.value.parser)
                             && res.value.ok == !res.value.parser.destroyed
                             && (p.destroyed ==> res.value.parser.destroyed)
                             && res.value.parser.maxSize == p.maxSize
  {
    if p.receiving then Failure(Recursive)
    else
      var l := Loop(Run(p.(receiving := true), []), data, 0);
      var f := if Pending(l.parser) then ReadMessage(l, data, |data|).run else l;
      Success(Received(f.parser.(receiving := false), f.frames, !f.parser.destroyed))
  }
}

=== FILE: roundtrip.dfy ===
/** Frames written by `send` are read back by `recv` unchanged. */
module RoundTrip {
  import opened Wrappers
  import opened Varint
  import opened Framing
  import opened Parser
  import opened Stream
  import opened Chunking

  /** A parser at a frame boundary: about to read a length prefix, with
      nothing accumulated. */
  predicate Boundary(p: Parser)
  {
    && p.phase == ReadLength && p.varint == 0 && p.factor == 1
    && p.consumed == 0 && p.message == [] && !p.destroyed
  }

  /** A frame `send` accepts. */
  predicate Sendable(f: Frame)
  {
    0 <= f.kind < 4 && 0 <= f.service < TwoTo29
  }

  function Encoded(f: Frame): seq<Byte>
    requires Sendable(f)
  {
    Send(f.kind, f.service, f.methodId, f.id, f.payload)
  }

  /** The frames `fs`, each written by `send`, back to back. */
  function Wire(fs: seq<Frame>): seq<Byte>
    requires forall i :: 0 <= i < |fs| ==> Sendable(fs[i])
    decreases |fs|
  {
    if |fs| == 0 then [] else Encoded(fs[0]) + Wire(fs[1..])
  }

  /** The parser state once every byte of `Encode(n)` has been folded into
      the accumulator, just before `_nextState` runs. */
  function Absorb(p: Parser, n: nat): Parser
  {
    var k := |Encode(n)|;
    p.(varint := p.varint + n * p.factor, consumed := p.consumed + k,
       factor := p.factor * Pow128(k - 1))
  }

  /** A one-byte encoding is absorbed by a single `Accumulate`. */
  lemma AbsorbOne(p: Parser, n: nat)
    requires n < 128
    ensures Accumulate(p, n) == Absorb(p, n)
  {
    assert |Encode(n)| == 1;
    assert p.factor * Pow128(0) == p.factor;
    assert n % 128 == n;
  }

  /** The parser's own varint decoder (`_varint += (b & 127) * _factor`)
      reads an encoding back as the number encoded, scaled by the factor it
      starts from, and hands it to `_nextState` at the terminating byte. */
  lemma {:induction false} FoldEncode(r: Run, n: nat)
    requires r.parser.phase != ReadPayload
    ensures Fold(r, Encode(n)) == NextState(Run(Absorb(r.parser, n), r.frames)).run
    decreases n
  {
    var p := r.parser;
    var s := Encode(n);
    if n < 128 {
      assert s[1..] == [];
      assert Fold(r, s) == Feed(r, n);
      AbsorbOne(p, n);
    } else {
      var b := n % 128 + 128;
      var q := Accumulate(p, b);
      var r1 := Run(q.(factor := q.factor * 128), r.frames);
      assert s[0] == b && s[1..] == Encode(n / 128);
      assert Fold(r, s) == Fold(Feed(r, b), s[1..]);
      assert Feed(r, b) == r1;
      FoldEncode(r1, n / 128);
      AbsorbStep(p, n);
    }
  }

  lemma AbsorbStep(p: Parser, n: nat)
    requires n >= 128
    ensures var q := Accumulate(p, n % 128 + 128);
            Absorb(q.(factor := q.factor * 128), n / 128) == Absorb(p, n)
  {
    var k1 := |Encode(n / 128)|;
    assert |Encode(n)| == k1 + 1;
    var b := n % 128 + 128;
    assert b % 128 == n % 128;
    var q := Accumulate(p, b);
    assert q.varint == p.varint + (n % 128) * p.factor && q.factor == p.factor;
    Digits(n, p.factor);
    assert q.varint + (n / 128) * (q.factor * 128) == p.varint + n * p.factor;
    assert Pow128(k1) == 128 * Pow128(k1 - 1);
    assert q.factor * 128 * Pow128(k1 - 1) == p.factor * Pow128(k1);
  }

  lemma Digits(n: nat, f: nat)
    ensures (n % 128) * f + (n / 128) * (f * 128) == n * f
  {
    var d, m := n / 128, n % 128;
    assert n == m + 128 * d;
    calc {
      n * f;
      (m + 128 * d) * f;
      m * f + (128 * d) * f;
      { assert (128 * d) * f == d * (f * 128); }
      m * f + d * (f * 128);
    }
  }

  /** A frame's bytes, field by field, alone and followed by more bytes. */
  lemma EncodedParts(f: Frame, rest: seq<Byte>)
    requires Sendable(f)
    ensures var L := FrameLength(f.kind, f.service, f.methodId, f.id, f.payload);
            Encoded(f) == Encode(L) + (Encode(Header(f.kind, f.service)) + (Encode(f.methodId) + (Encode(f.id) + f.payload)))
    ensures var L := FrameLength(f.kind, f.service, f.methodId, f.id, f.payload);
            Encoded(f) + rest ==
              Encode(L) + (Encode(Header(f.kind, f.service)) + (Encode(f.methodId) + (Encode(f.id) + (f.payload + rest))))
  {
  }

  /** No varint byte accumulated yet. */
  predicate Reset(p: Parser)
  {
    p.varint == 0 && p.factor == 1 && p.consumed == 0
  }

  /** Absorbing a whole varint with nothing accumulated before it. */
  lemma AbsorbReset(p: Parser, n: nat)
    requires Reset(p)
    ensures Absorb(p, n) == p.(varint := n, consumed := EncodingLength(n),
                               factor := Pow128(EncodingLength(n) - 1))
  {
    EncodingLengthIsLength(n);
  }

  /** `_nextState` after a whole positive length prefix. */
  lemma LengthStep(p: Parser, n: nat, frames: seq<Frame>)
    requires p.phase == ReadLength && Reset(p) && n > 0
    ensures NextState(Run(Absorb(p, n), frames)).run == Run(p.(phase := ReadHeader, length := n), frames)
    ensures NextState(Run(Absorb(p, n), frames)).proceed
  {
    AbsorbReset(p, n);
  }

  /** `_nextState` after a whole header that leaves room for more. */
  lemma HeaderStep(p: Parser, n: nat, frames: seq<Frame>)
    requires p.phase == ReadHeader && Reset(p) && p.length > EncodingLength(n)
    ensures NextState(Run(Absorb(p, n), frames)).run ==
              Run(p.(phase := ReadMethod, header := n, length := p.length - EncodingLength(n)), frames)
    ensures NextState(Run(Absorb(p, n), frames)).proceed
  {
    AbsorbReset(p, n);
  }

  /** `_nextState` after a whole method that leaves room for more. */
  lemma MethodStep(p: Parser, n: nat, frames: seq<Frame>)
    requires p.phase == ReadMethod && Reset(p) && p.length > EncodingLength(n)
    ensures NextState(Run(Absorb(p, n), frames)).run ==
              Run(p.(phase := ReadId, methodId := n, length := p.length - EncodingLength(n)), frames)
    ensures NextState(Run(Absorb(p, n), frames)).proceed
  {
    AbsorbReset(p, n);
  }

  /** `_nextState` after a whole id that leaves between 0 and `maxSize`
      bytes. */
  lemma IdStep(p: Parser, n: nat, frames: seq<Frame>)
    requires p.phase == ReadId && Reset(p)
    requires 0 <= p.length - EncodingLength(n) <= p.maxSize
    ensures NextState(Run(Absorb(p, n), frames)).run ==
              Run(p.(phase := ReadPayload, id := n, length := p.length - EncodingLength(n)), frames)
    ensures NextState(Run(Absorb(p, n), frames)).proceed
  {
    AbsorbReset(p, n);
  }

  /** A positive length prefix moves the parser on to the header. */
  lemma LengthField(r: Run, n: nat)
    requires r.parser.phase == ReadLength && Reset(r.parser) && n > 0
    ensures Fold(r, Encode(n)) == Run(r.parser.(phase := ReadHeader, length := n), r.frames)
  {
    FoldEncode(r, n);
    LengthStep(r.parser, n, r.frames);
  }

  /** A header that leaves room for more moves the parser on to the method. */
  lemma HeaderField(r: Run, n: nat)
    requires r.parser.phase == ReadHeader && Reset(r.parser)
    requires r.parser.length > EncodingLength(n)
    ensures Fold(r, Encode(n)) ==
              Run(r.parser.(phase := ReadMethod, header := n,
                            length := r.parser.length - EncodingLength(n)), r.frames)
  {
    FoldEncode(r, n);
    HeaderStep(r.parser, n, r.frames);
  }

  /** A method that leaves room for more moves the parser on to the id. */
  lemma MethodField(r: Run, n: nat)
    requires r.parser.phase == ReadMethod && Reset(r.parser)
    requires r.parser.length > EncodingLength(n)
    ensures Fold(r, Encode(n)) ==
              Run(r.parser.(phase := ReadId, methodId := n,
                            length := r.parser.length - EncodingLength(n)), r.frames)
  {
    FoldEncode(r, n);
    MethodStep(r.parser, n, r.frames);
  }

  /** An id that leaves between 0 and `maxSize` bytes moves the parser on to
      the payload. */
  lemma IdField(r: Run, n: nat)
    requires r.parser.phase == ReadId && Reset(r.parser)
    requires 0 <= r.parser.length - EncodingLength(n) <= r.parser.maxSize
    ensures Fold(r, Encode(n)) ==
              Run(r.parser.(phase := ReadPayload, id := n,
                            length := r.parser.length - EncodingLength(n)), r.frames)
  {
    FoldEncode(r, n);
    IdStep(r.parser, n, r.frames);
  }

  /** Reading four pieces at once is reading them one after another. */
  lemma FoldAppend4(r: Run, a: seq<Byte>, b: seq<Byte>, c: seq<Byte>, d: seq<Byte>)
    ensures Fold(r, a + b + c + d) == Fold(Fold(Fold(Fold(r, a), b), c), d)
  {
    FoldAppend(r, a + b + c, d);
    FoldAppend(r, a + b, c);
    FoldAppend(r, a, b);
  }

  /** The four varints of a frame read from a boundary leave the parser
      waiting for exactly the payload, with the header, method and id
      stored. */
  lemma FoldFields(r: Run, f: Frame)
    requires Boundary(r.parser)
    requires Sendable(f) && |f.payload| <= r.parser.maxSize
    ensures var h := Header(f.kind, f.service);
            var L := FrameLength(f.kind, f.service, f.methodId, f.id, f.payload);
            var g := Fold(r, Encode(L) + Encode(h) + Encode(f.methodId) + Encode(f.id));
            && g.frames == r.frames && g.parser.phase == ReadPayload
            && g.parser.length == |f.payload| && g.parser.message == []
            && g.parser.header == h && g.parser.methodId == f.methodId && g.parser.id == f.id
            && Reset(g.parser) && !g.parser.destroyed
            && g.parser.maxSize == r.parser.maxSize && g.parser.receiving == r.parser.receiving
  {
    var kind: nat, service: nat := f.kind, f.service;
    var h := Header(kind, service);
    var L := FrameLength(kind, service, f.methodId, f.id, f.payload);
    var eL, eh, em, ei := Encode(L), Encode(h), Encode(f.methodId), Encode(f.id);
    FoldAppend4(r, eL, eh, em, ei);
    LengthAndHeader(r, L, h);
    var r2 := Run(r.parser.(phase := ReadMethod, header := h, length := L - EncodingLength(h)), r.frames);
    assert Fold(Fold(r, eL), eh) == r2;
    MethodAndId(r2, f.methodId, f.id);
    assert r2.parser.length - EncodingLength(f.methodId) - EncodingLength(f.id) == |f.payload|;
  }

  /** The length prefix and a header that leaves room for more. */
  lemma LengthAndHeader(r: Run, L: nat, h: nat)
    requires r.parser.phase == ReadLength && Reset(r.parser)
    requires L > EncodingLength(h)
    ensures Fold(Fold(r, Encode(L)), Encode(h)) ==
              Run(r.parser.(phase := ReadMethod, header := h,
                            length := L - EncodingLength(h)), r.frames)
  {
    LengthField(r, L);
    HeaderField(Fold(r, Encode(L)), h);
  }

  /** A method and an id that leave between 0 and `maxSize` payload bytes. */
  lemma MethodAndId(r: Run, m: nat, id: nat)
    requires r.parser.phase == ReadMethod && Reset(r.parser)
    requires 0 <= r.parser.length - EncodingLength(m) - EncodingLength(id) <= r.parser.maxSize
    ensures Fold(Fold(r, Encode(m)), Encode(id)) ==
              Run(r.parser.(phase := ReadPayload, methodId := m, id := id,
                            length := r.parser.length - EncodingLength(m) - EncodingLength(id)), r.frames)
  {
    var n := r.parser.length - EncodingLength(m);
    MethodField(r, m);
    var r3 := Run(r.parser.(phase := ReadId, methodId := m, length := n), r.frames);
    assert Fold(r, Encode(m)) == r3;
    IdField(r3, id);
  }

  /** One frame read from a boundary: the parser ends with the payload
      complete and reports the frame `send` was given. */
  lemma FoldFrame(r: Run, f: Frame)
    requires Boundary(r.parser)
    requires Sendable(f) && |f.payload| <= r.parser.maxSize
    ensures var g := Fold(r, Encoded(f));
            && Pending(g.parser) && g.parser.consumed == 0 && !g.parser.destroyed
            && Boundary(Flush(g).parser)
            && Flush(g).frames == r.frames + [f]
  {
    var h := Header(f.kind, f.service);
    var L := FrameLength(f.kind, f.service, f.methodId, f.id, f.payload);
    var fields := Encode(L) + Encode(h) + Encode(f.methodId) + Encode(f.id);
    assert Encoded(f) == fields + f.payload;
    FoldFields(r, f);
    FoldThenPayload(r, fields, f);
  }

  /** Reading a frame's payload after its fields completes the frame. */
  lemma FoldThenPayload(r: Run, fields: seq<Byte>, f: Frame)
    requires Sendable(f)
    requires var g := Fold(r, fields);
             && g.frames == r.frames && g.parser.phase == ReadPayload
             && g.parser.length == |f.payload| && g.parser.message == []
             && g.parser.header == Header(f.kind, f.service)
             && g.parser.methodId == f.methodId && g.parser.id == f.id
             && Reset(g.parser) && !g.parser.destroyed
    ensures var g := Fold(r, fields + f.payload);
            && Pending(g.parser) && g.parser.consumed == 0 && !g.parser.destroyed
            && Boundary(Flush(g).parser)
            && Flush(g).frames == r.frames + [f]
  {
    FoldAppend(r, fields, f.payload);
    FoldPayload(Fold(r, fields), f.payload);
    assert [] + f.payload == f.payload;
    EmitFrame(r, Fold(r, fields + f.payload), f);
  }

  /** A parser holding a complete payload with the header, method and id of
      `f` reports `f` and returns to a boundary. */
  lemma EmitFrame(r: Run, g: Run, f: Frame)
    requires Sendable(f)
    requires g.frames == r.frames && g.parser.phase == ReadPayload
    requires g.parser.length == 0 && g.parser.message == f.payload
    requires g.parser.header == Header(f.kind, f.service)
    requires g.parser.methodId == f.methodId && g.parser.id == f.id
    requires Reset(g.parser) && !g.parser.destroyed
    ensures Pending(g.parser) && Boundary(Flush(g).parser)
    ensures Flush(g).frames == r.frames + [f]
  {
    assert Flush(g) == Emit(g);
    assert Frame(KindOf(g.parser.header), ServiceOf(g.parser.header), f.methodId, f.id, f.payload) == f;
  }

  /** After a complete frame, reading on from the unreported state is
      reading on from the state that reported it. */
  lemma AfterFrame(g: Run, rest: seq<Byte>)
    requires Boundary(Flush(g).parser) && |rest| > 0
    ensures Same(Fold(g, rest), Fold(Flush(g), rest))
    ensures Same(Flush(Fold(g, rest)), Flush(Fold(Flush(g), rest)))
  {
    FoldCongruence(g, Flush(g), rest);
  }

  /** Reading on from a state whose finished frame is not yet reported
      reads the same as reading on from the state that reported it. */
  lemma ReadsOn(g: Run, rest: seq<Byte>, tail: seq<Frame>)
    requires Boundary(Flush(g).parser) && |rest| > 0
    requires ReadsBack(Flush(g), rest, tail)
    ensures EndsBack(Flush(g), Fold(g, rest), tail)
  {
    AfterFrame(g, rest);
    SameBoundary(Flush(Fold(g, rest)), Flush(Fold(Flush(g), rest)));
  }

  /** The run `g` ends alive at a boundary, having reported the frames of
      `r` followed by `fs`. */
  predicate EndsBack(r: Run, g: Run, fs: seq<Frame>)
  {
    && !g.parser.destroyed && g.parser.consumed == 0
    && Boundary(Flush(g).parser)
    && Flush(g).frames == r.frames + fs
  }

  /** What `FoldStream` states about a stream of frames. */
  predicate ReadsBack(r: Run, s: seq<Byte>, fs: seq<Frame>)
  {
    EndsBack(r, Fold(r, s), fs)
  }

  /** A frame reported between `y` and `x` moves to the front of the frames
      reported after `x`. */
  lemma EndsBackShift(x: Run, y: Run, g: Run, f: Frame, tail: seq<Frame>)
    requires EndsBack(x, g, tail) && x.frames == y.frames + [f]
    ensures EndsBack(y, g, [f] + tail)
  {
    assert y.frames + [f] + tail == y.frames + ([f] + tail);
  }

  /** Bytes that read back one frame from a boundary, followed by a stream
      that reads back from the state after that frame, read back as a
      whole. */
  lemma ReadsBackCons(r: Run, e: seq<Byte>, f: Frame, rest: seq<Byte>, tail: seq<Frame>)
    requires var g := Fold(r, e);
             && g.parser.consumed == 0 && !g.parser.destroyed
             && Boundary(Flush(g).parser)
             && Flush(g).frames == r.frames + [f]
    requires ReadsBack(Flush(Fold(r, e)), rest, tail)
    ensures ReadsBack(r, e + rest, [f] + tail)
  {
    if |rest| == 0 {
      assert e + rest == e;
      assert Fold(Flush(Fold(r, e)), rest) == Flush(Fold(r, e));
      assert r.frames + [f] + tail == r.frames + ([f] + tail);
    } else {
      FoldAppend(r, e, rest);
      ReadsBackMore(r, e + rest, e, f, rest, tail);
    }
  }

  /** `ReadsBackCons` when more bytes follow the frame; `s` is the frame's
      bytes followed by `rest`. */
  lemma ReadsBackMore(r: Run, s: seq<Byte>, e: seq<Byte>, f: Frame, rest: seq<Byte>, tail: seq<Frame>)
    requires |rest| > 0
    requires Fold(r, s) == Fold(Fold(r, e), rest)
    requires var g := Fold(r, e);
             && Boundary(Flush(g).parser)
             && Flush(g).frames == r.frames + [f]
    requires ReadsBack(Flush(Fold(r, e)), rest, tail)
    ensures ReadsBack(r, s, [f] + tail)
  {
    var g := Fold(r, e);
    ReadsOn(g, rest, tail);
    EndsBackShift(Flush(g), r, Fold(g, rest), f, tail);
  }

  /** The first frame of a stream is read from a boundary back to a
      boundary, and if the rest of the stream reads back from there, the
      whole stream reads back. */
  lemma ContinueAfterFrame(r: Run, fs: seq<Frame>)
    requires Boundary(r.parser) && |fs| > 0
    requires forall i :: 0 <= i < |fs| ==> Sendable(fs[i]) && |fs[i].payload| <= r.parser.maxSize
    ensures var h := Flush(Fold(r, Encoded(fs[0])));
            && Boundary(h.parser) && h.parser.maxSize == r.parser.maxSize
            && (ReadsBack(h, Wire(fs[1..]), fs[1..]) ==> ReadsBack(r, Wire(fs), fs))
  {
    var f, tail := fs[0], fs[1..];
    assert Wire(fs) == Encoded(f) + Wire(tail);
    assert fs == [f] + tail;
    FoldFrame(r, f);
    if ReadsBack(Flush(Fold(r, Encoded(f))), Wire(tail), tail) {
      ReadsBackCons(r, Encoded(f), f, Wire(tail), tail);
    }
  }

  /** A stream of frames read from a boundary reports every frame, in
      order, and ends at a boundary. */
  lemma {:induction false} FoldStream(r: Run, fs: seq<Frame>)
    requires Boundary(r.parser)
    requires forall i :: 0 <= i < |fs| ==> Sendable(fs[i]) && |fs[i].payload| <= r.parser.maxSize
    ensures ReadsBack(r, Wire(fs), fs)
    decreases |fs|
  {
    if |fs| > 0 {
      ContinueAfterFrame(r, fs);
      FoldStream(Flush(Fold(r, Encoded(fs[0]))), fs[1..]);
    }
  }

  lemma SameBoundary(a: Run, b: Run)
    requires Same(a, b) && Boundary(b.parser)
    ensures Boundary(a.parser) && a.frames == b.frames
  {
  }

  /** One `recv` of a stream of frames written by `send` reports exactly
      those frames and leaves the parser alive at a frame boundary. */
  lemma RecvStream(p: Parser, fs: seq<Frame>)
    requires Idle(p) && Boundary(p)
    requires forall i :: 0 <= i < |fs| ==> Sendable(fs[i]) && |fs[i].payload| <= p.maxSize
    ensures var res := Recv(p, Wire(fs)).value;
            res.ok && res.frames == fs && Boundary(res.parser)
  {
    FoldStream(Run(p.(receiving := true), []), fs);
    RecvBridge(p, Wire(fs));
  }

  /** The frame round-trip: `send` followed by `recv` on a fresh parser
      reports the same type, service, method, id and payload exactly once
      and returns the parser to state 0. */
  lemma FrameRoundTrip(maxSize: nat, kind: nat, service: nat, methodId: nat, id: nat, body: seq<Byte>)
    requires kind < 4 && service < TwoTo29 && |body| <= maxSize
    ensures var res := Recv(NewParser(maxSize), Send(kind, service, methodId, id, body)).value;
            && res.ok
            && res.frames == [Frame(kind, service, methodId, id, body)]
            && Boundary(res.parser)
  {
    var f := Frame(kind, service, methodId, id, body);
    assert Wire([f]) == Send(kind, service, methodId, id, body) by {
      assert Wire([f]) == Encoded(f) + Wire([]);
    }
    RecvStream(NewParser(maxSize), [f]);
  }

  /** However a stream of frames is cut into chunks, if the parser survives
      the last chunk the chunks together report exactly the frames. */
  lemma ChunkedStream(p: Parser, fs: seq<Frame>, chunks: seq<seq<Byte>>)
    requires Idle(p) && Boundary(p)
    requires forall i :: 0 <= i < |fs| ==> Sendable(fs[i]) && |fs[i].payload| <= p.maxSize
    requires Concat(chunks) == Wire(fs)
    requires RecvChunks(p, chunks).ok
    ensures RecvChunks(p, chunks).frames == fs
  {
    SplitIndependence(p, chunks);
    RecvStream(p, fs);
  }
}

=== FILE: rpc.dfy ===
/** The RPC endpoint of index.js: the method registry, the calls awaiting an
    answer, and the routing decision `_onmessage` takes for each frame.
    Promises are uninterpreted continuations, a handler's outcome is a parameter,
    and what the endpoint sends is the argument list it hands to `_push`. */
module Rpc {
  import opened Wrappers
  import opened Varint
  import opened Codecs
  import opened CallTable
  import Framing

  /** A defined method (`class Method`). The handler, `onrequest`, is known
      by a tag; `None` stands for the `null` default. */
  datatype Method = Method(id: nat, requestEncoding: Codec, responseEncoding: Codec, errorEncoding: Codec, onrequest: Option<nat>)

  /** The options `defineMethod` reads; an absent option is `None`. */
  datatype Options = Options(id: Option<nat>, requestEncoding: Option<Codec>, responseEncoding: Option<Codec>, errorEncoding: Option<Codec>, onrequest: Option<nat>)

  /** A call awaiting its answer: the method it was made on and the promise
      to settle, known by a tag. */
  datatype PendingCall = PendingCall(callee: Method, continuation: nat)

  datatype Endpoint = Endpoint(methods: seq<Option<Method>>, calls: Table<PendingCall>, errorEncoding: Codec, destroyed: bool)

  /** The arguments of one `_push`: what the endpoint asks to send. */
  datatype Push = Push(kind: nat, methodId: nat, id: nat, message: Value, encoding: Codec)

  /** What a handler did: returned a value or threw one. */
  datatype Outcome = Returned(result: Value) | Threw(error: Value)

  /** What routing one frame does besides updating the endpoint. */
  datatype Effect =
    | Destroyed                                  // `this.destroy(...)`
    | Resolved(call: PendingCall, result: Value) // `req.resolve(res)`
    | Rejected(call: PendingCall, error: Value)  // `req.reject(err)`
    | Invoked(handler: Option<nat>, request: Value) // handler called, answer discarded
    | Replied(push: Push)                        // answer sent back
    | Ignored                                    // a frame type the switch has no case for

  datatype Dispatch = Dispatch(endpoint: Endpoint, effect: Effect)

  /** The `TypeError` a handler call throws when no handler was given. */
  const NotAFunction: Value := Other(0)

  /** A new endpoint; `errorEncoding` defaults to `ERROR`, and a codec the
      caller gives is kept. */
  function NewEndpoint(errorEncoding: Option<Codec>): (e: Endpoint)
    ensures Valid(e.calls) && InFlight(e.calls) == 0 && |e.methods| == 0 && !e.destroyed
    ensures errorEncoding.None? ==> e.errorEncoding == ErrorCodec
    ensures errorEncoding.Some? ==> e.errorEncoding == errorEncoding.value
  {
    Endpoint([], Empty(), errorEncoding.GetOr(ErrorCodec), false)
  }

  /** `this.methods[id]`: `None` past the end as well as for a hole, so a
      method is found exactly when one was stored at that index. */
  function Lookup(e: Endpoint, id: nat): (r: Option<Method>)
    ensures r.Some? <==> id < |e.methods| && e.methods[id].Some?
    ensures r.Some? ==> e.methods[id] == r
  {
    if id < |e.methods| then e.methods[id] else None
  }

  /** `new Method(rpc, id, opts)`: request and response default to `BINARY`,
      errors to the endpoint's error codec. */
  function NewMethod(e: Endpoint, id: nat, opts: Options): (m: Method)
    ensures m.id == id && m.onrequest == opts.onrequest
    ensures m.requestEncoding == (if opts.requestEncoding.Some? then opts.requestEncoding.value else Binary)
    ensures m.responseEncoding == (if opts.responseEncoding.Some? then opts.responseEncoding.value else Binary)
    ensures m.errorEncoding == (if opts.errorEncoding.Some? then opts.errorEncoding.value else e.errorEncoding)
  {
    Method(id, opts.requestEncoding.GetOr(Binary), opts.responseEncoding.GetOr(Binary),
           opts.errorEncoding.GetOr(e.errorEncoding), opts.onrequest)
  }

  /** `defineMethod(opts)`: the id defaults to the table's length; the table
      is padded with holes up to the id and the method stored there,
      replacing whatever was there before. */
  method DefineMethod(e: Endpoint, opts: Options) returns (next: Endpoint, m: Method)
    ensures var id := opts.id.GetOr(|e.methods|);
      && m == NewMethod(e, id, opts)
      && |next.methods| == (if id < |e.methods| then |e.methods| else id + 1)
      && (forall j: nat :: Lookup(next, j) == (if j == id then Some(m) else Lookup(e, j)))
    ensures next.calls == e.calls && next.errorEncoding == e.errorEncoding && next.destroyed == e.destroyed
  {
    var id := if opts.id.None? then |e.methods| else opts.id.value;
    var methods := e.methods;
    while |methods| <= id
      invariant |e.methods| <= |methods| <= (if id < |e.methods| then |e.methods| else id + 1)
      invariant methods[..|e.methods|] == e.methods
      invariant forall j :: |e.methods| <= j < |methods| ==> methods[j].None?
    {
      methods := methods + [None];
    }
    m := NewMethod(e, id, opts);
    methods := methods[id := Some(m)];
    next := e.(methods := methods);
    forall j: nat
      ensures Lookup(next, j) == (if j == id then Some(m) else Lookup(e, j))
    {
      if j != id && j < |e.methods| {
        assert methods[j] == e.methods[j];
      }
    }
  }

  /** `inflightRequests`: on a well-formed table, the number of calls
      still awaiting an answer. */
  function InflightRequests(e: Endpoint): (n: int)
    ensures Valid(e.calls) ==> n == Pending(e.calls.requests)
  {
    InFlightWhenValid(e.calls);
    InFlight(e.calls)
  }

  lemma InFlightWhenValid<T>(t: Table<T>)
    ensures Valid(t) ==> InFlight(t) == Pending(t.requests)
  {
    if Valid(t) {
      InFlightCountsPending(t);
    }
  }

  /** `_request(method, message)`: take an id, ask to send the request on
      it, and remember the call. */
  function Call(e: Endpoint, m: Method, message: Value, continuation: nat): (r: (Endpoint, Push))
    requires Valid(e.calls)
    ensures var (next, push) := r;
      && Valid(next.calls)
      && push == Push(Framing.Request, m.id, push.id, message, m.requestEncoding)
      && !Busy(e.calls, push.id) && Busy(next.calls, push.id) && next.calls.requests[push.id] == Some(PendingCall(m, continuation))
      && InflightRequests(next) == InflightRequests(e) + 1
      && next.methods == e.methods && next.destroyed == e.destroyed
  {
    var a := Request(e.calls, PendingCall(m, continuation));
    (e.(calls := a.table), Push(Framing.Request, m.id, a.id, message, m.requestEncoding))
  }

  /** `_requestNoReply(method, message)`: a request on id 0, remembering
      nothing. */
  function CallNoReply(e: Endpoint, m: Method, message: Value): (r: (Endpoint, Push))
    ensures var (next, push) := r;
      && next == e && InflightRequests(next) == InflightRequests(e)
      && push == Push(Framing.Request, m.id, 0, message, m.requestEncoding)
  {
    (e, Push(Framing.Request, m.id, 0, message, m.requestEncoding))
  }

  /** `_free(id)` on the endpoint: the pending call, or destruction when
      there is none. */
  function Settle(e: Endpoint, id: nat): (r: (Endpoint, Option<PendingCall>))
    requires Valid(e.calls)
    ensures Valid(r.0.calls) && r.0.methods == e.methods && r.0.errorEncoding == e.errorEncoding
    ensures r.1.Some? <==> Busy(e.calls, id)
    ensures r.1.None? ==> r.0 == e.(destroyed := true)
    ensures r.1.Some? ==>
      && r.1 == e.calls.requests[id] && r.0.destroyed == e.destroyed
      && InflightRequests(r.0) == InflightRequests(e) - 1 && !Busy(r.0.calls, id)
  {
    var f := Free(e.calls, id);
    if f.call.None? then (e.(destroyed := true), None) else (e.(calls := f.table), f.call)
  }

  /** Decode an answer and settle the call it belongs to; a codec that throws
      destroys the endpoint after the id was released. */
  function Answer(e: Endpoint, id: nat, codec: Codec, message: seq<Byte>, custom: CustomDecoder, success: bool): (d: Dispatch)
    requires Valid(e.calls)
    ensures Valid(d.endpoint.calls) && d.endpoint.methods == e.methods && d.endpoint.errorEncoding == e.errorEncoding
    ensures !Busy(e.calls, id) ==> d == Dispatch(e.(destroyed := true), Destroyed)
    ensures Busy(e.calls, id) ==>
      && !Busy(d.endpoint.calls, id) && InflightRequests(d.endpoint) == InflightRequests(e) - 1
      && (Decode(codec, message, custom).None? ==> d.effect == Destroyed && d.endpoint.destroyed)
      && (Decode(codec, message, custom).Some? ==>
            && d.endpoint.destroyed == e.destroyed
            && var v := Decode(codec, message, custom).value;
               d.effect == (if success then Resolved(e.calls.requests[id].value, v)
                            else Rejected(e.calls.requests[id].value, v)))
  {
    var (settled, call) := Settle(e, id);
    if call.None? then Dispatch(settled, Destroyed)
    else
      match Decode(codec, message, custom)
      case None => Dispatch(settled.(destroyed := true), Destroyed)
      case Some(v) =>
        Dispatch(settled, if success then Resolved(call.value, v) else Rejected(call.value, v))
  }

  /** `_onmessage(type, method, id, message)`. `outcome` is what the handler
      does when it is called for a request that wants a reply. */
  function Route(e: Endpoint, kind: int, methodId: nat, id: nat, message: seq<Byte>,
                 custom: CustomDecoder, outcome: Outcome): (d: Dispatch)
    requires Valid(e.calls)
    ensures Valid(d.endpoint.calls)
    ensures d.endpoint.methods == e.methods && d.endpoint.errorEncoding == e.errorEncoding
    ensures d.effect.Destroyed? ==> d.endpoint.destroyed
    ensures !d.effect.Destroyed? ==> d.endpoint.destroyed == e.destroyed
    ensures d.endpoint.calls != e.calls ==> kind == Framing.Response || kind == Framing.Error
    ensures d.effect.Resolved? ==> kind == Framing.Response && Busy(e.calls, id) && Some(d.effect.call) == e.calls.requests[id]
    ensures d.effect.Rejected? ==> kind == Framing.Error && Busy(e.calls, id) && Some(d.effect.call) == e.calls.requests[id]
    ensures d.effect.Replied? ==> kind == Framing.Request && id != 0 && d.effect.push.id == id && d.effect.push.methodId == methodId
    ensures d.effect.Invoked? ==> kind == Framing.Request && id == 0
  {
    var found := Lookup(e, methodId);
    if found.None? then Dispatch(e.(destroyed := true), Destroyed)
    else
      var m := found.value;
      if kind == Framing.Response then Answer(e, id, m.responseEncoding, message, custom, true)
      else if kind == Framing.Error then Answer(e, id, m.errorEncoding, message, custom, false)
      else if kind == Framing.Request then
        match Decode(m.requestEncoding, message, custom)
        case None => Dispatch(e.(destroyed := true), Destroyed)
        case Some(request) =>
          if id == 0 then Dispatch(e, Invoked(m.onrequest, request))
          else
            var push :=
              if m.onrequest.None? then Push(Framing.Error, methodId, id, NotAFunction, m.errorEncoding)
              else match outcome
                case Returned(result) => Push(Framing.Response, methodId, id, result, m.requestEncoding)
                case Threw(error) => Push(Framing.Error, methodId, id, error, m.errorEncoding);
            Dispatch(e, Replied(push))
      else Dispatch(e, Ignored)
  }

  /** A frame naming a method that was never defined destroys the endpoint,
      whatever its type: no error reply is ever sent for it. */
  lemma UnknownMethodDestroys(e: Endpoint, kind: int, methodId: nat, id: nat, message: seq<Byte>,
                              custom: CustomDecoder, outcome: Outcome)
    requires Valid(e.calls) && Lookup(e, methodId).None?
    ensures var d := Route(e, kind, methodId, id, message, custom, outcome);
      d.effect == Destroyed && d.endpoint == e.(destroyed := true)
  {
  }

  /** An answer for an id with no pending call destroys the endpoint and
      settles nothing. */
  lemma UnmatchedAnswerDestroys(e: Endpoint, kind: int, methodId: nat, id: nat, message: seq<Byte>,
                                custom: CustomDecoder, outcome: Outcome)
    requires Valid(e.calls) && (kind == Framing.Response || kind == Framing.Error) && !Busy(e.calls, id)
    ensures var d := Route(e, kind, methodId, id, message, custom, outcome);
      d.effect == Destroyed && d.endpoint == e.(destroyed := true)
  {
  }

  /** A response to a pending call, on a method whose response codec decodes
      the payload, resolves exactly that call with the decoded value and
      releases its id; the same response a second time is then unmatched. */
  lemma ResponseSettlesOnce(e: Endpoint, methodId: nat, id: nat, message: seq<Byte>,
                            custom: CustomDecoder, outcome: Outcome)
    requires Valid(e.calls) && Busy(e.calls, id)
    requires Lookup(e, methodId).Some? && Decode(Lookup(e, methodId).value.responseEncoding, message, custom).Some?
    ensures var d := Route(e, Framing.Response, methodId, id, message, custom, outcome);
      && d.effect == Resolved(e.calls.requests[id].value, Decode(Lookup(e, methodId).value.responseEncoding, message, custom).value)
      && !d.endpoint.destroyed == !e.destroyed
      && InflightRequests(d.endpoint) == InflightRequests(e) - 1
      && Route(d.endpoint, Framing.Response, methodId, id, message, custom, outcome).effect == Destroyed
  {
    var d := Route(e, Framing.Response, methodId, id, message, custom, outcome);
    assert !Busy(d.endpoint.calls, id);
  }

  /** An answer is decoded with the codec of the method named in the frame,
      not with the method the pending call was made on: a response whose
      method differs from the call's still resolves that call. */
  lemma CrossMethodResponse(e: Endpoint, methodId: nat, id: nat, message: seq<Byte>,
                            custom: CustomDecoder, outcome: Outcome)
    requires Valid(e.calls) && Busy(e.calls, id)
    requires Lookup(e, methodId).Some? && e.calls.requests[id].value.callee != Lookup(e, methodId).value
    requires Decode(Lookup(e, methodId).value.responseEncoding, message, custom).Some?
    ensures var d := Route(e, Framing.Response, methodId, id, message, custom, outcome);
      && d.effect == Resolved(e.calls.requests[id].value, Decode(Lookup(e, methodId).value.responseEncoding, message, custom).value)
      && d.effect.call.callee != Lookup(e, methodId).value
  {
    ResponseSettlesOnce(e, methodId, id, message, custom, outcome);
  }

  /** An error frame for a pending call rejects exactly that call with the
      error its method's error codec decodes, and releases its id; with the
      default `ERROR` codec that error carries the payload as its message. */
  lemma ErrorRejects(e: Endpoint, methodId: nat, id: nat, message: seq<Byte>,
                     custom: CustomDecoder, outcome: Outcome)
    requires Valid(e.calls) && Busy(e.calls, id)
    requires Lookup(e, methodId).Some? && Decode(Lookup(e, methodId).value.errorEncoding, message, custom).Some?
    ensures var d := Route(e, Framing.Error, methodId, id, message, custom, outcome);
      && d.effect == Rejected(e.calls.requests[id].value, Decode(Lookup(e, methodId).value.errorEncoding, message, custom).value)
      && (Lookup(e, methodId).value.errorEncoding == ErrorCodec ==> d.effect.error == ErrorValue(message))
      && !d.endpoint.destroyed == !e.destroyed
      && InflightRequests(d.endpoint) == InflightRequests(e) - 1
  {
  }

  /** A request with id 0 runs the handler on the decoded request and never
      sends a reply. */
  lemma NoReplyOnIdZero(e: Endpoint, methodId: nat, message: seq<Byte>, custom: CustomDecoder, outcome: Outcome)
    requires Valid(e.calls)
    requires Lookup(e, methodId).Some? && Decode(Lookup(e, methodId).value.requestEncoding, message, custom).Some?
    ensures var m := Lookup(e, methodId).value;
      var d := Route(e, Framing.Request, methodId, 0, message, custom, outcome);
      && d.endpoint == e
      && d.effect == Invoked(m.onrequest, Decode(m.requestEncoding, message, custom).value)
  {
  }

  /** A request with any other id is answered: a returned value as a
      Response frame encoded with the method's request codec, a thrown one
      (or a missing handler) as an Error frame with its error codec. */
  lemma RequestIsAnswered(e: Endpoint, methodId: nat, id: nat, message: seq<Byte>, custom: CustomDecoder, outcome: Outcome)
    requires Valid(e.calls) && id != 0
    requires Lookup(e, methodId).Some? && Decode(Lookup(e, methodId).value.requestEncoding, message, custom).Some?
    ensures var m := Lookup(e, methodId).value;
      var d := Route(e, Framing.Request, methodId, id, message, custom, outcome);
      && d.endpoint == e
      && (m.onrequest.Some? && outcome.Returned? ==>
            d.effect == Replied(Push(Framing.Response, methodId, id, outcome.result, m.requestEncoding)))
      && (m.onrequest.Some? && outcome.Threw? ==>
            d.effect == Replied(Push(Framing.Error, methodId, id, outcome.error, m.errorEncoding)))
      && (m.onrequest.None? ==>
            d.effect == Replied(Push(Framing.Error, methodId, id, NotAFunction, m.errorEncoding)))
  {
  }

  /** The first call on a new endpoint is sent on id 0, so the peer treats
      it as a request that wants no reply. */
  lemma FirstCallGetsNoReply(errorEncoding: Option<Codec>, opts: Options, message: Value, continuation: nat)
    ensures var e := NewEndpoint(errorEncoding);
      var m := NewMethod(e, opts.id.GetOr(0), opts);
      Call(e, m, message, continuation).1.id == 0
  {
    var e := NewEndpoint(errorEncoding);
    FirstIdIsZero(PendingCall(NewMethod(e, opts.id.GetOr(0), opts), continuation));
  }

  /** With no options, a method on a default endpoint uses `BINARY` for
      requests and responses and `ERROR` for errors. */
  lemma MethodDefaults(id: nat)
    ensures var m := NewMethod(NewEndpoint(None), id, Options(None, None, None, None, None));
      m.requestEncoding == Binary && m.responseEncoding == Binary && m.errorEncoding == ErrorCodec
  {
  }
}

=== FILE: stream.dfy ===
/** A byte-at-a-time reading of the parser, used as the reference `recv` is
    proved against. `Feed` consumes exactly one byte; a finished payload is
    reported lazily, just before the next byte or at the end of the input,
    which is where `recv` reports it too. Chunk boundaries do not exist here,
    so results stated about `Fold` are independent of how the input is cut. */
module Stream {
  import opened Wrappers
  import opened Varint
  import opened Framing
  import opened Parser

  /** Reports a finished payload if there is one (lines 38-40 of `recv`). */
  function Flush(r: Run): (f: Run)
    ensures !Pending(f.parser)
    ensures f.parser.destroyed == r.parser.destroyed
    ensures f.parser.receiving == r.parser.receiving
    ensures f.parser.maxSize == r.parser.maxSize
    ensures Pending(r.parser) ==> f == Emit(r)
    ensures !Pending(r.parser) ==> f == r
  {
    if Pending(r.parser) then Emit(r) else r
  }

  /** One byte read by a parser with no finished payload left over. */
  function Step(r: Run, b: Byte): Run
  {
    var p := r.parser;
    if p.phase == ReadPayload then
      Run(p.(message := p.message + [b], length := p.length - 1), r.frames)
    else
      var q := Accumulate(p, b);
      if b < 128 then NextState(Run(q, r.frames)).run
      else Run(q.(factor := q.factor * 128), r.frames)
  }

  function Feed(r: Run, b: Byte): Run
  {
    Step(Flush(r), b)
  }

  /** `Feed` over every byte of `s`, in order. */
  function Fold(r: Run, s: seq<Byte>): (f: Run)
    ensures r.parser.destroyed ==> f.parser.destroyed
    ensures f.parser.receiving == r.parser.receiving
    ensures f.parser.maxSize == r.parser.maxSize
    decreases |s|
  {
    if |s| == 0 then r else Fold(Feed(r, s[0]), s[1..])
  }

  /** The parser fields later input can observe: in `ReadLength` the
      remaining-length field is dead (the next length varint overwrites it),
      and after a payload completes its stale value depends on where the
      chunks were cut. */
  function Canon(p: Parser): Parser
  {
    if p.phase == ReadLength then p.(length := 0) else p
  }

  predicate Same(a: Run, b: Run)
  {
    Canon(a.parser) == Canon(b.parser) && a.frames == b.frames
  }

  /** Two runs that agree once their finished payloads are reported. */
  predicate Equiv(a: Run, b: Run)
  {
    Same(Flush(a), Flush(b))
  }

  /** What one `recv` computes, read byte by byte: the chunk's bytes, the
      overlong-varint check when the chunk is not empty, and the report of a
      finished payload at the end. */
  function Reference(p: Parser, data: seq<Byte>): Received
  {
    var f := Fold(Run(p.(receiving := true), []), data);
    Finish(Flush(if |data| == 0 then f else Guard(f)))
  }

  function Finish(r: Run): Received
  {
    Received(r.parser.(receiving := false), r.frames, !r.parser.destroyed)
  }

  // ---------------------------------------------------------------------
  // Algebra of the reference machine

  lemma {:induction false} FoldAppend(r: Run, a: seq<Byte>, b: seq<Byte>)
    ensures Fold(r, a + b) == Fold(Fold(r, a), b)
    decreases |a|
  {
    if |a| > 0 {
      assert (a + b)[0] == a[0];
      assert (a + b)[1..] == a[1..] + b;
      FoldAppend(Feed(r, a[0]), a[1..], b);
    } else {
      assert a + b == b;
    }
  }

  /** The frame that `_nextState` reports, if any, does not depend on the
      frames already reported. */
  lemma NextStateFrames(x: Parser, fs: seq<Frame>)
    ensures var a := NextState(Run(x, fs)).run;
            var b := NextState(Run(x, [])).run;
            a.parser == b.parser && a.frames == fs + b.frames
  {
  }

  lemma FeedFrames(x: Parser, fs: seq<Frame>, c: Byte)
    ensures var a := Feed(Run(x, fs), c);
            var b := Feed(Run(x, []), c);
            a.parser == b.parser && a.frames == fs + b.frames
  {
    var f := Flush(Run(x, fs));
    var g := Flush(Run(x, []));
    assert f.parser == g.parser && f.frames == fs + g.frames;
    var q := Accumulate(f.parser, c);
    if f.parser.phase != ReadPayload && c < 128 {
      NextStateFrames(q, f.frames);
      NextStateFrames(q, g.frames);
    }
  }

  /** Frames already reported are carried along untouched. */
  lemma {:induction false} FoldFrames(x: Parser, fs: seq<Frame>, s: seq<Byte>)
    ensures Fold(Run(x, fs), s).parser == Fold(Run(x, []), s).parser
    ensures Fold(Run(x, fs), s).frames == fs + Fold(Run(x, []), s).frames
    decreases |s|
  {
    if |s| > 0 {
      var a := Feed(Run(x, fs), s[0]);
      var b := Feed(Run(x, []), s[0]);
      FeedFrames(x, fs, s[0]);
      assert Fold(Run(x, fs), s) == Fold(a, s[1..]);
      assert Fold(Run(x, []), s) == Fold(b, s[1..]);
      assert a == Run(a.parser, a.frames) && b == Run(a.parser, b.frames);
      FoldFrames(a.parser, a.frames, s[1..]);
      FoldFrames(a.parser, b.frames, s[1..]);
      var rest := Fold(Run(a.parser, []), s[1..]).frames;
      assert (fs + b.frames) + rest == fs + (b.frames + rest);
    }
  }

  lemma SameStep(a: Run, b: Run, x: Byte)
    requires Same(a, b)
    ensures Same(Step(a, x), Step(b, x))
  {
    if a.parser.phase == ReadLength {
      assert b.parser == a.parser.(length := b.parser.length);
      if x < 128 {
        assert Step(a, x) == Step(b, x);
      }
    } else {
      assert a == b;
    }
  }

  lemma SameFlush(a: Run, b: Run)
    requires Same(a, b)
    ensures Same(Flush(a), Flush(b))
  {
  }

  lemma SameGuard(a: Run, b: Run)
    requires Same(a, b)
    ensures Same(Guard(a), Guard(b))
  {
  }

  /** Runs that agree up to an unreported payload keep agreeing on any
      further input, and agree exactly once a byte has been read. */
  lemma {:induction false} FoldCongruence(a: Run, b: Run, s: seq<Byte>)
    requires Equiv(a, b)
    ensures Equiv(Fold(a, s), Fold(b, s))
    ensures |s| > 0 ==> Same(Fold(a, s), Fold(b, s))
    decreases |s|
  {
    if |s| > 0 {
      SameStep(Flush(a), Flush(b), s[0]);
      var a1 := Feed(a, s[0]);
      var b1 := Feed(b, s[0]);
      SameFlush(a1, b1);
      FoldCongruence(a1, b1, s[1..]);
      if |s| == 1 {
        assert s[1..] == [];
      }
    }
  }

  /** A payload byte never completes a frame by itself. */
  lemma {:induction false} FoldPayload(r: Run, s: seq<Byte>)
    requires r.parser.phase == ReadPayload
    requires |s| <= r.parser.length
    ensures Fold(r, s) == Run(r.parser.(message := r.parser.message + s,
                                        length := r.parser.length - |s|), r.frames)
    decreases |s|
  {
    if |s| > 0 {
      var r1 := Feed(r, s[0]);
      assert r1 == Run(r.parser.(message := r.parser.message + [s[0]],
                                 length := r.parser.length - 1), r.frames);
      FoldPayload(r1, s[1..]);
      assert r.parser.message + [s[0]] + s[1..] == r.parser.message + s;
    }
  }

  // ---------------------------------------------------------------------
  // The bridge: `recv` computes what the reference computes

  lemma {:induction false} VarintBridge(r: Run, data: seq<Byte>, offset: nat)
    requires offset <= |data|
    requires r.parser.phase != ReadPayload
    requires Valid(r.parser)
    ensures var c := ReadVarint(r, data, offset);
            var g := Fold(r, data[offset..c.offset]);
            && (!g.parser.destroyed ==>
                  if c.offset < |data| then Equiv(c.run, g) else Equiv(c.run, Guard(g)))
            && (!c.run.parser.destroyed ==> !g.parser.destroyed)
    decreases |data| - offset
  {
    var c := ReadVarint(r, data, offset);
    if offset < |data| {
      var b := data[offset];
      var p := Accumulate(r.parser, b);
      var seg := data[offset..c.offset];
      assert seg[0] == b;
      assert seg[1..] == data[offset + 1..c.offset];
      assert Feed(r, b) == Step(r, b);
      if b >= 128 {
        VarintBridge(Run(p.(factor := p.factor * 128), r.frames), data, offset + 1);
      } else {
        if c.offset == offset + 1 {
          assert seg == [b];
        }
      }
    }
  }

  lemma {:induction false} IterateBridge(r: Run, data: seq<Byte>, offset: nat)
    requires offset < |data|
    requires Valid(r.parser)
    ensures var c := Iterate(r, data, offset);
            var g := Fold(r, data[offset..c.offset]);
            && (!g.parser.destroyed ==>
                  if c.offset < |data| then Equiv(c.run, g) else Equiv(c.run, Guard(g)))
            && (!c.run.parser.destroyed ==> !g.parser.destroyed)
  {
    var c := Iterate(r, data, offset);
    var p := r.parser;
    if p.phase != ReadPayload {
      VarintBridge(r, data, offset);
    } else if !p.destroyed {
      var seg := data[offset..c.offset];
      FoldPayload(r, seg);
      var g := Fold(r, seg);
      assert Guard(g) == g;
      if |data| - offset >= p.length {
        assert seg == Slice(data, offset, offset + p.length);
        assert Flush(g) == Emit(g);
        assert Canon(c.run.parser) == Canon(Emit(g).parser);
      } else {
        assert c.run == g;
      }
    }
  }

  /** Joins the two halves of the loop: `h` is the reference after the rest
      of the chunk read from where `recv`'s turn ended, `f` the same read
      from where the reference's own bytes of that turn ended. */
  lemma LoopJoin(l: Run, h: Run, f: Run)
    requires Same(h, f)
    requires !h.parser.destroyed ==> Equiv(l, Guard(h))
    requires !l.parser.destroyed ==> !h.parser.destroyed
    ensures !f.parser.destroyed ==> Equiv(l, Guard(f))
    ensures !l.parser.destroyed ==> !f.parser.destroyed
  {
    SameDestroyed(h, f);
    if !f.parser.destroyed {
      SameGuard(h, f);
      SameFlush(Guard(h), Guard(f));
      EquivTrans(l, Guard(h), Guard(f));
    }
  }

  lemma SameDestroyed(a: Run, b: Run)
    requires Same(a, b)
    ensures a.parser.destroyed == b.parser.destroyed
  {
    assert Canon(a.parser).destroyed == a.parser.destroyed;
    assert Canon(b.parser).destroyed == b.parser.destroyed;
  }

  lemma EquivTrans(a: Run, b: Run, c: Run)
    requires Equiv(a, b) && Equiv(b, c)
    ensures Equiv(a, c)
  {
  }

  lemma {:induction false} LoopBridge(r: Run, data: seq<Byte>, offset: nat)
    requires offset <= |data|
    requires Valid(r.parser)
    ensures var l := Loop(r, data, offset);
            var f := Fold(r, data[offset..]);
            && (!f.parser.destroyed ==> Equiv(l, if offset < |data| then Guard(f) else f))
            && (!l.parser.destroyed ==> !f.parser.destroyed)
    decreases |data| - offset, if r.parser.phase == ReadPayload then 1 else 0
  {
    if offset < |data| {
      var c := Iterate(r, data, offset);
      var seg := data[offset..c.offset];
      var rest := data[c.offset..];
      var g := Fold(r, seg);
      var f := Fold(r, data[offset..]);
      var l := Loop(r, data, offset);
      assert data[offset..] == seg + rest;
      FoldAppend(r, seg, rest);
      IterateBridge(r, data, offset);
      LoopBridge(c.run, data, c.offset);
      if c.offset < |data| {
        assert l == Loop(c.run, data, c.offset);
        if !f.parser.destroyed || !l.parser.destroyed {
          assert !g.parser.destroyed;
          FoldCongruence(c.run, g, rest);
          LoopJoin(l, Fold(c.run, rest), f);
        }
      } else {
        assert rest == [];
      }
    }
  }

  /** The `_readMessage` call at the end of `recv` is the reference's
      report of a finished payload. */
  lemma FinalFlush(l: Run, data: seq<Byte>)
    requires Valid(l.parser) && Pending(l.parser)
    ensures ReadMessage(l, data, |data|).run == Flush(l)
  {
    assert Slice(data, |data|, |data| + l.parser.length) == [];
    assert l.parser.message + [] == l.parser.message;
  }

  /** `recv` is its loop followed by the report of a finished payload. */
  lemma RecvUnfold(p: Parser, data: seq<Byte>)
    requires Valid(p) && !p.receiving
    ensures Recv(p, data).value == Finish(Flush(Loop(Run(p.(receiving := true), []), data, 0)))
  {
    var l := Loop(Run(p.(receiving := true), []), data, 0);
    if Pending(l.parser) {
      FinalFlush(l, data);
    }
  }

  /** Runs that are the same give the same `recv` result. */
  lemma FinishSame(a: Run, b: Run)
    requires Same(a, b)
    ensures Canon(Finish(a).parser) == Canon(Finish(b).parser)
    ensures Finish(a).frames == Finish(b).frames && Finish(a).ok == Finish(b).ok
  {
  }

  /** `recv` agrees with the reference on every chunk the reference reads
      without destroying the parser, and a `recv` that leaves the parser
      alive is one of those. */
  lemma RecvBridge(p: Parser, data: seq<Byte>)
    requires Valid(p) && !p.receiving
    ensures var res := Recv(p, data).value;
            var f := Fold(Run(p.(receiving := true), []), data);
            var e := Reference(p, data);
            && (!f.parser.destroyed ==>
                  Canon(res.parser) == Canon(e.parser) && res.frames == e.frames && res.ok == e.ok)
            && (res.ok ==> !f.parser.destroyed)
  {
    var r0 := Run(p.(receiving := true), []);
    var l := Loop(r0, data, 0);
    var f := Fold(r0, data);
    assert data[0..] == data;
    LoopBridge(r0, data, 0);
    RecvUnfold(p, data);
    if !f.parser.destroyed {
      FinishSame(Flush(l), Flush(if |data| == 0 then f else Guard(f)));
    }
  }
}

/** Chunk-boundary independence: `recv` reports the same frames however the
    byte stream is cut into chunks. */
module Chunking {
  import opened Wrappers
  import opened Varint
  import opened Parser
  import opened Stream

  /** One `recv` per chunk, in order; the frames of all calls together and
      the value the last call returned. */
  function RecvChunks(p: Parser, chunks: seq<seq<Byte>>): (res: Received)
    requires Idle(p)
    ensures Idle(res.parser)
    ensures res.ok == !res.parser.destroyed
    decreases |chunks|
  {
    if |chunks| == 0 then Received(p, [], !p.destroyed)
    else
      var a := Recv(p, chunks[0]).value;
      var rest := RecvChunks(a.parser, chunks[1..]);
      Received(rest.parser, a.frames + rest.frames, rest.ok)
  }

  function Concat(chunks: seq<seq<Byte>>): seq<Byte>
    decreases |chunks|
  {
    if |chunks| == 0 then [] else chunks[0] + Concat(chunks[1..])
  }

  /** A first chunk that leaves the parser alive is read by the reference
      without destruction, and the parser `recv` leaves behind is the
      reference's once the finished payload is reported. */
  lemma SplitFirst(p: Parser, a: seq<Byte>)
    requires Idle(p) && Recv(p, a).value.ok
    ensures var A := Recv(p, a).value;
            var fa := Fold(Run(p.(receiving := true), []), a);
            && !fa.parser.destroyed
            && Flush(fa).frames == A.frames
            && Canon(A.parser.(receiving := true)) == Canon(Flush(fa).parser)
  {
    RecvBridge(p, a);
  }

  /** Continuing the reference from the end of the first chunk is
      continuing it from the parser `recv` left, with the first chunk's
      frames in front. */
  lemma SplitSecond(fa: Run, q: Parser, b: seq<Byte>)
    requires Canon(q) == Canon(Flush(fa).parser) && !Pending(q) && |b| > 0
    ensures var fb := Fold(Run(q, []), b);
            Same(Fold(fa, b), Run(fb.parser, Flush(fa).frames + fb.frames))
  {
    var x := Flush(fa).parser;
    FoldCongruence(fa, Flush(fa), b);
    assert Flush(fa) == Run(x, Flush(fa).frames);
    FoldFrames(x, Flush(fa).frames, b);
    FoldCongruence(Run(x, []), Run(q, []), b);
  }

  /** The reference over `a + b` is the reference over `b` from where
      `recv` of `a` left the parser, with the frames of `a` in front. */
  lemma SplitJoin(p: Parser, a: seq<Byte>, b: seq<Byte>)
    requires Idle(p) && Recv(p, a).value.ok && |b| > 0
    ensures var A := Recv(p, a).value;
            var fb := Fold(Run(A.parser.(receiving := true), []), b);
            Same(Fold(Run(p.(receiving := true), []), a + b), Run(fb.parser, A.frames + fb.frames))
  {
    var A := Recv(p, a).value;
    SplitFirst(p, a);
    var r0 := Run(p.(receiving := true), []);
    SplitSecond(Fold(r0, a), A.parser.(receiving := true), b);
    FoldAppend(r0, a, b);
  }

  /** Reading `a` and then `b` in two calls, when the parser survives both,
      reports what one call on `a + b` reports and leaves an equivalent
      parser; the single call survives too. */
  lemma ChunkSplit(p: Parser, a: seq<Byte>, b: seq<Byte>)
    requires Idle(p)
    requires Recv(Recv(p, a).value.parser, b).value.ok
    ensures var A := Recv(p, a).value;
            var B := Recv(A.parser, b).value;
            var W := Recv(p, a + b).value;
            && W.ok
            && W.frames == A.frames + B.frames
            && Canon(W.parser) == Canon(B.parser)
  {
    var A := Recv(p, a).value;
    assert A.ok;
    if |b| == 0 {
      assert a + b == a;
    } else {
      var fb := Fold(Run(A.parser.(receiving := true), []), b);
      var w := Fold(Run(p.(receiving := true), []), a + b);
      var shifted := Run(fb.parser, A.frames + fb.frames);
      RecvBridge(A.parser, b);
      SplitJoin(p, a, b);
      SameGuard(w, shifted);
      SameFlush(Guard(w), Guard(shifted));
      FoldFrames(fb.parser, A.frames, []);
      assert Flush(Guard(shifted)).frames == A.frames + Flush(Guard(fb)).frames;
      RecvBridge(p, a + b);
    }
  }

  /** Any cutting of a stream into chunks, with the parser alive after the
      last one, reports exactly what a single `recv` of the whole stream
      reports. */
  lemma {:induction false} SplitIndependence(p: Parser, chunks: seq<seq<Byte>>)
    requires Idle(p)
    requires RecvChunks(p, chunks).ok
    ensures var W := Recv(p, Concat(chunks)).value;
            var C := RecvChunks(p, chunks);
            W.ok && W.frames == C.frames && Canon(W.parser) == Canon(C.parser)
    decreases |chunks|
  {
    if |chunks| > 0 {
      var a := Recv(p, chunks[0]).value;
      SplitIndependence(a.parser, chunks[1..]);
      ChunkSplit(p, chunks[0], Concat(chunks[1..]));
    } else {
      assert Recv(p, []).value.parser == p;
    }
  }
}

=== FILE: varint.dfy ===
/** Unsigned LEB128 ("Variable Length Data", section 7.6 of the DWARF 4
    standard): seven value bits per byte, least significant group first, the
    high bit set on every byte but the last. This is the format of every
    integer field of a frame. */
module Varint {

  type Byte = b: int | 0 <= b < 256

  /** 128 to the power `k`. */
  function Pow128(k: nat): (r: nat)
    ensures r >= 1
  {
    if k == 0 then 1 else 128 * Pow128(k - 1)
  }

  /** The encoding of `n`: every byte but the last carries the continuation
      bit, the last one does not. */
  function Encode(n: nat): (s: seq<Byte>)
    ensures |s| >= 1
    ensures s[|s| - 1] < 128
    ensures forall i :: 0 <= i < |s| - 1 ==> s[i] >= 128
    decreases n
  {
    if n < 128 then [n] else [n % 128 + 128] + Encode(n / 128)
  }

  /** The number the low seven bits of `s` spell, least significant group
      first. */
  function Value(s: seq<Byte>): nat
  {
    if |s| == 0 then 0 else s[0] % 128 + 128 * Value(s[1..])
  }

  /** The byte count of `Encode(n)`, computed without building it: the number
      of seven-bit groups `n` needs. */
  function EncodingLength(n: nat): (k: nat)
    ensures k >= 1
    ensures n < Pow128(k)
    ensures k > 1 ==> Pow128(k - 1) <= n
    decreases n
  {
    if n < 128 then 1 else 1 + EncodingLength(n / 128)
  }

  /** The bytes of an encoding spell the number encoded. */
  lemma {:induction false} ValueOfEncode(n: nat)
    ensures Value(Encode(n)) == n
    decreases n
  {
    if n >= 128 {
      ValueOfEncode(n / 128);
      var s := Encode(n);
      assert s[1..] == Encode(n / 128);
    }
  }

  /** `EncodingLength` counts exactly the bytes `Encode` writes. */
  lemma {:induction false} EncodingLengthIsLength(n: nat)
    ensures |Encode(n)| == EncodingLength(n)
    decreases n
  {
    if n >= 128 {
      EncodingLengthIsLength(n / 128);
    }
  }

  /** A number fits in at most eight bytes exactly when it is below 2^56,
      the bound the stream parser's overlong-varint check is written for. */
  lemma AtMostEightBytes(n: nat)
    ensures EncodingLength(n) <= 8 <==> n < Pow128(8)
  {
    var k := EncodingLength(n);
    if k <= 8 {
      PowMonotone(k, 8);
    } else {
      PowMonotone(8, k - 1);
    }
  }

  lemma {:induction false} PowMonotone(i: nat, j: nat)
    requires i <= j
    ensures Pow128(i) <= Pow128(j)
    decreases j
  {
    if i < j {
      PowMonotone(i, j - 1);
    }
  }

  lemma PowStrict(i: nat, j: nat)
    ensures i < j ==> Pow128(i) < Pow128(j)
  {
    if i < j {
      PowMonotone(i, j - 1);
    }
  }
}

=== FILE: wrappers.dfy ===
/** Optional values and outcomes shared by the whole model. `Option` stands for
    JavaScript's `null`/`undefined` versus a value, `Result` for a call that
    either returns or throws. */
module Wrappers {

  datatype Option<+T> = None | Some(value: T) {

    /** The value, or `default` when there is none: JavaScript's `x || default`
        on an option that is either absent or a (truthy) value. */
    function GetOr(default: T): T {
      match this
      case Some(v) => v
      case None => default
    }
  }

  datatype Result<+R, +E> = Success(value: R) | Failure(error: E)
}
